=== FILE: README.md ===
# Quote-vote ledger in Dafny

This project models the service core of a quote-voting backend. Users create
quotes, vote for them and read reports about them. The model covers two parts.

**The vote ledger** (`VoteService`, `VoteLedger`).
- `voteQuote` casts a vote (`vote_value = 1`) or retracts one (`vote_value = -1`).
- `checkVoteEligibility` answers whether a user may vote on a quote.
- `getUserCurrentVote` returns the user's current vote.
- The central property is the ledger invariant `Store.Consistent`:
  - the schema's own constraints hold;
  - each user has at most one vote row;
  - each quote's `vote_count` equals the number of vote rows that reference it.
- Every `voteQuote` call keeps this invariant.
- Casting a vote and then retracting it gives back the original tables.

**The quote service** (`QuoteService`, `QuoteLifecycle`, `QuoteListing`, `QuoteReports`, `QuoteSummary`, `QuoteEffects`).
- Creating a quote: tag cleaning, duplicate detection and the initial values.
- The owner guard and the zero-vote lockout on update and delete.
- Sort-field whitelisting and sort direction.
- Pagination arithmetic.
- The top-three list.
- The personal summary: totals, rank and category distribution, and how a new quote moves them.
- The request bounds of the DTOs (`QuoteDto`).

**How the tables are modelled.**
- Both tables are sequences of rows in scan order (`Store.Db`). "The first row a query returns" is therefore well defined.
- `Db.nextId` is the `SERIAL` counter behind `quotes.id`.
- A write is a pure function that returns `Step(state, reply)`.
- A failed write returns its input state unchanged. This is the rollback.
- Reads are functions of the state.
- Timestamps are abstract integers, passed in as `now`.
- Text is `seq<char>`:
  - JavaScript `trim` removes the ECMAScript white-space and line-terminator characters;
  - PostgreSQL `TRIM` removes spaces only;
  - case mapping covers the ASCII letters, and upper-casing also maps dotless i and long s.

**What the code does that a reader might not expect.**
- The schema has no uniqueness constraint on `votes.user_id`. It declares only `UNIQUE (user_id, quote_id)` (src/database/database.module.ts:32).
  - The one-vote-per-user rule is therefore kept only by the application check in the cast branch.
  - `Store.WellFormed` holds the schema constraints.
  - `Store.OneVotePerUser` is the application rule. The ledger lemmas prove that it is preserved.
- The eligibility answer `can_vote` does not predict whether a cast succeeds.
  - `can_vote` requires the quote's counter to be 0, but the cast branch does not look at the counter.
  - `can_vote` ignores the user's votes on other quotes, but the cast branch refuses those.
  - `VoteLedger.EligibilityIsNotCastOutcome` gives one consistent state for each direction of the disagreement.
- The rank is computed with `ROW_NUMBER()`, so users level on votes received get different numbers.
- The writes can be refused by the table itself. `author VARCHAR(255)` and `category VARCHAR(50)` refuse a longer value unless the excess is all spaces, and `content` and `author` are `NOT NULL`. The model gives such a write the error `Rejected` and leaves the tables unchanged.
- `updateQuote` writes NULL for every field the request leaves out (see "## Findings").

## Model

| member | source | states |
|---|---|---|
| Text.JsTrim | src/quote/quote.service.ts:272-273 | JavaScript `trim` leaves the input minus one run of white space at each end, and the result neither starts nor ends with white space |
| Text.SqlTrim | src/quote/quote.service.ts:252 | PostgreSQL `TRIM` does the same with spaces only |
| Text.TrimEmptyIffAllSpace | src/quote/quote.service.ts:241 | `tag.trim().length > 0` fails exactly for tags made only of white space |
| Text.TrimByIdempotent | src/quote/quote.service.ts:252 | trimming text that is already trimmed leaves it unchanged |
| Text.Lower | src/quote/quote.service.ts:242 | lower-casing keeps the length, turns each upper-case ASCII letter into its lower-case letter, keeps every other character, and leaves no upper-case ASCII letter |
| Text.Upper | src/quote/quote.service.ts:21 | upper-casing keeps the length, turns each lower-case ASCII letter into its upper-case letter, dotless i into I and long s into S, keeps every other character, and leaves no lower-case ASCII letter |
| Store.Varchar | src/database/database.module.ts:16-17 | a `VARCHAR(n)` column stores a string of at most n characters as it is, cuts a longer one to n characters when the excess is all spaces, and refuses any other |
| QuoteDto.Page | src/quote/dto/quote.dto.ts:71-75 | the page is the requested one when given and 1 otherwise, so at least 1 on a valid query |
| QuoteDto.Limit | src/quote/dto/quote.dto.ts:77-82 | the page size is the requested one when given and 10 otherwise, so within 1..50 on a valid query |
| QuoteService.CleanTag | src/quote/quote.service.ts:241-242 | a tag that is not blank becomes non-empty, trimmed and free of upper-case letters |
| QuoteService.CleanTagIsLoweredMiddle | src/quote/quote.service.ts:241-242 | the cleaned tag is the lower-cased middle of the tag, left after removing the white space around it |
| QuoteService.CleanAll | src/quote/quote.service.ts:240-242 | filtering and mapping never lengthen the list |
| QuoteService.CleanAllClean | src/quote/quote.service.ts:240-242 | every tag that survives cleaning is non-empty, trimmed and free of upper-case letters |
| QuoteService.CleanAllEmpty | src/quote/quote.service.ts:240-242 | nothing survives cleaning exactly when every tag is blank |
| QuoteService.CleanTags | src/quote/quote.service.ts:239-246 | the stored tags are null iff the request had none or only blank ones; otherwise they are the first min(10, n) of the n cleaned tags, in request order, all clean |
| QuoteService.StoredCategory | src/quote/quote.service.ts:274 | the category is stored lower-cased, and an empty or missing category is stored as null |
| QuoteService.CreateQuote | src/quote/quote.service.ts:248-281 | creation fails with Conflict iff the user owns a quote with the same normalised content, and with Rejected iff otherwise the trimmed author or the lower-cased category does not fit its column; a failure changes nothing; a success appends exactly one row, with the next serial id, the caller as owner, 0 votes, trimmed content, the author and category as their columns store them, the cleaned tags, and `now` as both timestamps |
| QuoteService.MutationGuard | src/quote/quote.service.ts:335-345 | the guard answers NotFound iff the id is missing; Forbidden(NotOwner) iff the quote belongs to someone else; Forbidden(HasVotes) iff the caller owns it but its counter is not 0; on success it names the caller's row, which has 0 votes |
| QuoteService.UpdateQuote | src/quote/quote.service.ts:325-358 | as written: guard failures pass through; after the guards the update is Rejected iff content or author is missing or empty, or the author or a given category does not fit; a failure changes nothing; a success rewrites only that row, with the given content and author, the given category or null, the given tags or null, and keeps id, owner, counter and creation time |
| QuoteService.UpdateQuoteFixed | src/quote/quote.service.ts:347-358 | corrected: every field the request omits or leaves empty keeps its stored value; success iff the guards pass and the merged row fits its columns; a failure changes nothing |
| QuoteService.CascadeVotes | src/database/database.module.ts:29 | `ON DELETE CASCADE` keeps exactly the vote rows that do not reference the deleted quote, and all of them when none does |
| QuoteService.DeleteQuote | src/quote/quote.service.ts:372-398 | delete succeeds iff the guards pass, and a failure changes nothing; on success the row leaves the table and the other rows keep their order |
| QuoteLifecycle.CleanAllAppend | src/quote/quote.service.ts:240-242 | cleaning works tag by tag, so the relative order of the kept tags is the order of the request |
| QuoteLifecycle.CleanAllSingleton | src/quote/quote.service.ts:240-242 | a single tag cleans to nothing when blank and to its cleaned form otherwise |
| QuoteLifecycle.CleanAllMembers | src/quote/quote.service.ts:240-242 | a string is among the cleaned tags iff it is the cleaned form of some non-blank tag of the request |
| QuoteLifecycle.CleanTagOfClean | src/quote/quote.service.ts:241-242 | a tag that is already clean is kept as it is |
| QuoteLifecycle.CleanAllOfClean | src/quote/quote.service.ts:240-242 | a list of clean tags cleans to itself |
| QuoteLifecycle.CleanTagsIdempotent | src/quote/quote.service.ts:239-246 | cleaning the stored tags a second time changes nothing |
| QuoteLifecycle.SqlTrimOfJsTrimmed | src/quote/quote.service.ts:252 | stored content passes through SQL `TRIM` unchanged, so the duplicate check compares like with like |
| QuoteLifecycle.DuplicateAfterAppend | src/quote/quote.service.ts:249-253 | the duplicate check looks only at the caller's own rows: after a row is added, content is a duplicate iff it was one before or the new row is the caller's and normalises to the same text |
| QuoteLifecycle.CreateThenSameContentConflicts | src/quote/quote.service.ts:248-257 | after a successful create, the same user creating content that normalises to the same text gets Conflict |
| QuoteLifecycle.ValidRequestMayStoreShortContent | src/quote/dto/quote.dto.ts:5-9 | the length bounds are checked before trimming, so a valid request can store content shorter than 10 characters |
| QuoteLifecycle.AppendFreshQuoteConsistent | src/quote/quote.service.ts:259-281 | a row with a fresh serial id and a zero counter keeps the ledger invariant |
| QuoteLifecycle.CreatePreservesConsistent | src/quote/quote.service.ts:248-281 | creating a quote keeps the ledger invariant |
| QuoteLifecycle.UpdatePreservesConsistent | src/quote/quote.service.ts:347-358 | updating a quote keeps the ledger invariant |
| QuoteLifecycle.UpdateFixedPreservesConsistent | src/quote/quote.service.ts:347-358 | the corrected update keeps the ledger invariant too |
| QuoteLifecycle.ValidPartialUpdateRejected | src/quote/quote.service.ts:351-354 | as written, a valid request that changes only the category of a quote its owner may edit is refused, and nothing changes |
| QuoteLifecycle.FixedKeepsOmittedFields | src/quote/quote.service.ts:351-354 | corrected, every field the request leaves out keeps its stored value |
| QuoteLifecycle.FixedSucceedsIffGuards | src/quote/quote.service.ts:335-354 | corrected, a valid request whose category fits succeeds exactly when the guards pass |
| QuoteLifecycle.LockoutMeansNoVotes | src/quote/quote.service.ts:343-345 | on a ledger whose counters match the rows, a quote that passes the guards has no vote row |
| QuoteLifecycle.DeleteCascadesNothing | src/quote/quote.service.ts:388-396 | on such a ledger a successful delete removes no vote row |
| QuoteLifecycle.DeleteRemovesExactlyThatQuote | src/quote/quote.service.ts:393-396 | a successful delete removes exactly the deleted id, and every other quote stays unchanged |
| QuoteLifecycle.DeletePreservesConsistent | src/quote/quote.service.ts:380-396 | deleting a quote keeps the ledger invariant |
| QuoteEffects.CreateCountsOneMoreQuote | src/quote/quote.service.ts:404-415 | after a successful create the creator's quote count is one higher, every other user's is unchanged, and nobody's votes received change |
| QuoteEffects.StoredCategoryIsLower | src/quote/quote.service.ts:274 | a stored category is its own `LOWER`, so the distribution groups it under itself |
| QuoteEffects.CreateCountsItsCategory | src/quote/quote.service.ts:440-448 | after a successful create, the group of the new quote's stored category grows by one and every other group stays; a category of at most 50 characters is stored exactly as `StoredCategory` gives it |
| QuoteEffects.ValidCreateRejectedOnlyByCategory | src/database/database.module.ts:16-17 | on a request the validators accept the trimmed author always fits, so the insert is refused only for a category too long for `VARCHAR(50)`, and the author is stored exactly as trimmed |
| QuoteListing.SortField | src/quote/quote.service.ts:19-20 | the sort column is always whitelisted; it is the requested one when that is whitelisted, and `vote_count` otherwise |
| QuoteListing.SortDirection | src/quote/quote.service.ts:21 | the direction is ascending iff the upper-cased request is exactly `ASC` |
| QuoteListing.AscendingIffAsc | src/quote/quote.service.ts:122 | under the case mapping of `Text.Upper`, the requests that sort ascending are exactly the three-letter ones made of `a` or `A`, then `s`, `S` or long s, then `c` or `C` |
| QuoteListing.Offset | src/quote/quote.service.ts:23 | the offset is a non-negative multiple of the page size that skips exactly `page - 1` pages |
| QuoteListing.TotalPages | src/quote/quote.service.ts:226 | the page count is the fewest pages of `limit` rows that hold every matching row |
| QuoteListing.AuthorSortOnlyInPublicListing | src/quote/quote.service.ts:19-20 | both listings accept `vote_count`; a request to sort by author is honoured by the public listing and falls back to `vote_count` in a user's own listing (lines 120-121) |
| QuoteListing.ListingPlan | src/quote/quote.service.ts:110-124 | on a valid query the plan sorts by the requested column when the whitelist holds it and by `vote_count` otherwise, ascending iff the upper-cased order is exactly `ASC`, with the requested or default page size (1 to 50) and an offset of `page - 1` pages |
| QuoteListing.UserPagination | src/quote/quote.service.ts:220-229 | the pagination echoes the page, the size and the total, and its page count is the ceiling of the total over the page size |
| QuoteListing.PlanMatchesPagination | src/quote/quote.service.ts:110-229 | the rows the plan fetches are the page the pagination reports; a requested page and size are used as given, and without them the first ten rows are served |
| QuoteListing.PageInRangeIffRowsRemain | src/quote/quote.service.ts:124 | a page starts inside the result set exactly when its number is at most the reported page count |
| QuoteReports.SortByRank | src/quote/quote.service.ts:494 | the sort returns a permutation of the table ordered by votes descending, then creation time descending |
| QuoteReports.TopQuotes | src/quote/quote.service.ts:483-496 | the list holds min(3, table size) quotes of the table, each no more often than the table holds it, best first, and every quote left out ranks no better than each quote listed |
| QuoteReports.TopVoted | src/quote/quote.service.ts:498-499 | entry k carries rank k + 1 and the k-th top quote |
| QuoteReports.QuotesCreated | src/quote/quote.service.ts:404-407 | the quote count is 0 exactly when the user owns no quote, and never exceeds the table size |
| QuoteReports.VotesReceived | src/quote/quote.service.ts:410-415 | a user none of whose quotes has a vote has a total of 0 |
| QuoteReports.Rank | src/quote/quote.service.ts:418-437 | there is no rank exactly when the user's total is 0 or less; otherwise the rank is at least 1 |
| QuoteReports.Distribution | src/quote/quote.service.ts:440-448 | there are no more groups than the user has categorized quotes, and no group at all exactly when the user has no quote with a category |
| QuoteSummary.PersonalSummary | src/quote/quote.service.ts:401-473 | the summary carries the user's quote count, votes received and rank; each category group counts exactly the user's quotes with that lower-cased category, and the groups add up to the number of the user's categorized quotes; there is no rank iff the total received is not positive, and a user without quotes has no votes and no categories |
| QuoteReports.NoQuotesNothingElse | src/quote/quote.service.ts:410-448 | a user who owns no quote has a vote total of 0 and an empty category distribution |
| QuoteSummary.QuotesCreatedAppend | src/quote/quote.service.ts:404-407 | the quote count over a table is the sum of the counts over its parts |
| QuoteSummary.VotesReceivedAppend | src/quote/quote.service.ts:410-415 | the votes received over a table are the sum over its parts |
| QuoteSummary.CategoryTallyAppend | src/quote/quote.service.ts:440-448 | the number of a user's quotes in a category over a table is the sum over its parts |
| QuoteSummary.DistributionCounts | src/quote/quote.service.ts:440-448 | the group of category c counts exactly the user's quotes whose lower-cased category is c |
| QuoteSummary.DistributionDistinct | src/quote/quote.service.ts:446 | `GROUP BY` yields one group per category, and each group counts at least one quote |
| QuoteSummary.SumIsCategorized | src/quote/quote.service.ts:450-453 | the total that the percentages divide by is the number of the user's quotes that have a category |
| QuoteSummary.ReceivedIffVotedQuote | src/quote/quote.service.ts:410-415 | with no negative counter, the total received is non-negative, and it is positive iff one of the user's quotes has a vote |
| QuoteSummary.RankAbsentIffNoVoteRows | src/quote/quote.service.ts:433-437 | on a consistent ledger the rank is null exactly when no vote row references any of the user's quotes |
| QuoteSummary.RankWithinRanked | src/quote/quote.service.ts:427-434 | a rank lies between 1 and the number of ranked users |
| QuoteSummary.RankStrictlyOrders | src/quote/quote.service.ts:431 | a user with strictly more votes received has a strictly smaller rank |
| VoteService.Cast | src/vote/vote.service.ts:22-63 | a cast succeeds iff the user has no vote row at all; it then appends the pair with value 1 and raises only this quote's counter by 1; a refusal changes nothing, and AlreadyVoted or VotedForAnother(id) names a quote the user really voted for |
| VoteService.Retract | src/vote/vote.service.ts:65-92 | a retract succeeds iff the (user, quote) row exists; it then deletes that row and sets the counter to max(0, count - 1); otherwise it fails with NotVoted and changes nothing |
| VoteService.VoteQuote | src/vote/vote.service.ts:7-105 | the call fails with NotFound iff the quote is missing, whatever the value; no failure changes anything; a value other than 1 or -1 changes nothing and returns nothing; a success echoes the quote id |
| VoteService.CheckVoteEligibility | src/vote/vote.service.ts:107-139 | NotFound iff the quote is missing; the two reasons report a zero counter and a missing (user, quote) row, and `can_vote` is their conjunction; `existing_vote` is present iff that row exists, and then holds the value of a (user, quote) vote row |
| VoteService.GetUserCurrentVote | src/vote/vote.service.ts:141-157 | when every vote references an existing quote, the answer is null iff the user has no vote row; an answer carries the quote id and value of one of the user's vote rows, and the content, author and counter of that quote's row |
| VoteLedger.CastPreservesConsistent | src/vote/vote.service.ts:24-56 | a cast keeps the ledger invariant |
| VoteLedger.RetractPreservesConsistent | src/vote/vote.service.ts:67-86 | a retract keeps the ledger invariant |
| VoteLedger.VoteQuotePreservesConsistent | src/vote/vote.service.ts:7-105 | every `voteQuote` call keeps the ledger invariant, whatever the value and outcome |
| VoteLedger.CastOutcomes | src/vote/vote.service.ts:24-43 | with one row per user, a cast gives AlreadyVoted iff the row is on this quote, VotedForAnother(other) iff it is on another quote, and success iff there is no row |
| VoteLedger.CastAddsExactlyThePair | src/vote/vote.service.ts:45-49 | a successful cast adds exactly the (user, quote) pair to the set of voted pairs |
| VoteLedger.RetractRemovesExactlyThePair | src/vote/vote.service.ts:76-79 | with unique pairs, a successful retract removes exactly that pair, and keeps the user's pairs on other quotes |
| VoteLedger.CastThenRetractRestores | src/vote/vote.service.ts:45-84 | a cast followed by a retract of the same vote returns the original tables |
| VoteLedger.CurrentVoteAfterCast | src/vote/vote.service.ts:141-157 | after a successful cast, the user's current vote is on the quote just voted for |
| VoteLedger.CurrentVoteAfterRetract | src/vote/vote.service.ts:141-157 | after a successful retract, the user has no current vote |
| VoteLedger.EligibilityMatchesRows | src/vote/vote.service.ts:119-138 | on a consistent ledger `can_vote` holds iff no vote row references the quote, and an existing vote's value is 1 or -1 |
| VoteLedger.EligibilityIsNotCastOutcome | src/vote/vote.service.ts:126 | some consistent state gives `can_vote` true where the cast is refused, and some gives `can_vote` false where the cast succeeds |

## Left out

- Concurrency and transaction isolation are not modelled. Each write is one atomic step. The `BEGIN`/`ROLLBACK`/`COMMIT` statements go through a stateless driver.
- I/O is not modelled. The SQL driver, Redis, the connection setup and module wiring become the pure state `Db`.
- The controllers, HTTP status mapping and the JWT guard are not modelled. The caller's user id is a parameter.
- ILIKE text search and the category filter of the listings are not modelled. The same goes for the `json_agg` of voters, the `creator_name`/`user_name` joins and the JSON (de)serialisation of tags. These are database and library behaviour. Only the plan (sort, limit, offset) and the page count are modelled.
- Timestamps are not modelled as dates. `NOW()` and `CURRENT_TIMESTAMP` become the abstract integer `now`.
- The category percentages are not modelled. They use floating-point rounding. The model proves only that their denominator is the categorized count.
- The order of the category groups (`ORDER BY count DESC`) is not modelled. Neither is the order among top-voted quotes tied on both votes and creation time. Both are left to the database.
- QuoteReports.Rank: tied users all receive 1 plus the number of users strictly ahead. `ROW_NUMBER()` numbers tied users apart in an order the database chooses. The properties claimed hold for every such order: no rank iff the total is 0 or less, a rank between 1 and the number of ranked users, and more votes means a smaller rank.
- QuoteService.UpdateQuote: models the code as written, including the refused partial update under "## Findings". It treats `tags` as a list, so an empty list given in the request is stored as an empty list; the JSON text of the column is not modelled.
- Text.Lower: maps only the ASCII letters. JavaScript `toLowerCase` and PostgreSQL `LOWER` also map other letters (`É` to `é`, and `İ` to two characters). So the duplicate check, the stored category and the category groups are exact only for ASCII letters.
- Text.Upper: maps the ASCII letters, dotless i and long s, and keeps the length. JavaScript `toUpperCase` uses full Unicode case mapping, which maps many more letters and can lengthen a string (`ß` becomes `SS`). For the sort direction this makes no difference: apart from long s, only `ß` upper-cases to letters of `ASC`, and its `SS` cannot appear in `ASC`, so `QuoteListing.AscendingIffAsc` describes the code.
- White space beyond the listed ECMAScript white-space and line-terminator characters is not modelled. Lengths count characters, not UTF-16 code units.
- QuoteListing.Offset: numbers are unbounded integers. `page` has a lower bound but no upper bound, and `(page - 1) * limit` is a JavaScript double. Once the offset leaves PostgreSQL's `bigint` range the `OFFSET` parameter is refused and the listing throws. The model has no such error path: it serves an empty page for every large `page`, and `QuoteListing.PageInRangeIffRowsRemain` describes that outcome. Likewise `vote_count` is a 32-bit `INT`, so a cast that would raise it past 2147483647 fails in the database. The model's counter never overflows.
- QuoteService.CreateQuote: a refused insert leaves `nextId` unchanged. PostgreSQL's sequence still advances on a failed insert, so real ids are fresh but not always consecutive. Every lemma about ids needs only freshness.
- Quotes whose owner became NULL through `ON DELETE SET NULL` on `users` are not modelled. The users table is not modelled.
- A `vote_value` outside {1, -1} leaves the transaction open in the code. The model treats it as no change with no reply. The controller rejects a value whose numeric form is neither 1 nor -1 before the service is called.

## Findings

| source | as written | input that shows it | evidently intended | confidence | as-written member | corrected member |
|---|---|---|---|---|---|---|
| src/quote/quote.service.ts:330-354 | the guard fetches only `id, user_id, vote_count`, so `content \|\| quote[0].content` and `author \|\| quote[0].author` are `undefined` for an omitted field; the `UPDATE` then writes NULL into the `NOT NULL` columns and throws, and an omitted category or tag list is written as NULL | an update of the caller's own zero-vote quote with the body `{ "category": "life" }`, which the validators accept | every field the request omits keeps its stored value | not executed | QuoteLifecycle.ValidPartialUpdateRejected | QuoteLifecycle.FixedKeepsOmittedFields |

=== FILE: quote_dto.dfy ===
/**
 * The request bodies and query of the quote endpoints and the bounds their
 * validators impose. A request reaches the service only when its predicate
 * holds. Lengths count characters.
 */
module QuoteDto {
  import opened Wrappers

  const ContentMinLength := 10
  const ContentMaxLength := 1000
  const AuthorMinLength := 2
  const AuthorMaxLength := 100
  const DefaultPage := 1
  const DefaultLimit := 10
  const MaxLimit := 50

  /** The body of a create request. */
  datatype CreateQuoteDto = CreateQuoteDto(
    content: string,
    author: string,
    category: Option<string>,
    tags: Option<seq<string>>)

  /** The body of an update request: every field optional. */
  datatype UpdateQuoteDto = UpdateQuoteDto(
    content: Option<string>,
    author: Option<string>,
    category: Option<string>,
    tags: Option<seq<string>>)

  /** The query of the listing endpoints, `page` and `limit` already parsed as integers. */
  datatype QuoteQueryDto = QuoteQueryDto(
    category: Option<string>,
    author: Option<string>,
    search: Option<string>,
    sortBy: Option<string>,
    sortOrder: Option<string>,
    page: Option<int>,
    limit: Option<int>)

  predicate ValidContent(s: string)
  {
    ContentMinLength <= |s| <= ContentMaxLength
  }

  predicate ValidAuthor(s: string)
  {
    AuthorMinLength <= |s| <= AuthorMaxLength
  }

  /**
   * Content and author are non-empty strings within their length bounds;
   * category and tags are free (their string typing is carried by the types).
   */
  predicate ValidCreate(dto: CreateQuoteDto)
  {
    ValidContent(dto.content) && ValidAuthor(dto.author)
  }

  /** An update field that is present obeys the create bounds. */
  predicate ValidUpdate(dto: UpdateQuoteDto)
  {
    && (dto.content.Some? ==> ValidContent(dto.content.value))
    && (dto.author.Some? ==> ValidAuthor(dto.author.value))
  }

  /** `page` is at least 1 and `limit` between 1 and 50, when given; `sortOrder` may be any string. */
  predicate ValidQuery(q: QuoteQueryDto)
  {
    && (q.page.Some? ==> q.page.value >= 1)
    && (q.limit.Some? ==> 1 <= q.limit.value <= MaxLimit)
  }

  /** The page to serve: the given one, or 1. */
  function Page(q: QuoteQueryDto): (r: int)
    ensures ValidQuery(q) ==> r >= 1
    ensures q.page.None? ==> r == DefaultPage
    ensures q.page.Some? ==> r == q.page.value
  {
    q.page.GetOr(DefaultPage)
  }

  /** The page size: the given one, or 10. */
  function Limit(q: QuoteQueryDto): (r: int)
    ensures ValidQuery(q) ==> 1 <= r <= MaxLimit
    ensures q.limit.None? ==> r == DefaultLimit
    ensures q.limit.Some? ==> r == q.limit.value
  {
    q.limit.GetOr(DefaultLimit)
  }
}

=== FILE: quote_effects.dfy ===
/**
 * How creating a quote moves the personal summary: the creator's quote count
 * goes up by one, nobody's votes received change, and the new quote is
 * counted in the group of its stored category. Also which requests the
 * insert refuses once the request validators have passed.
 */
module QuoteEffects {
  import opened Wrappers
  import opened Text
  import opened Store
  import opened QuoteDto
  import opened QuoteService
  import opened QuoteReports
  import opened QuoteSummary

  /** Appending one row changes the totals by that row's own contribution. */
  lemma AppendRowTotals(quotes: seq<Quote>, q: Quote, user: UserId, c: string)
    ensures QuotesCreated(quotes + [q], user) == QuotesCreated(quotes, user) + (if q.owner == user then 1 else 0)
    ensures VotesReceived(quotes + [q], user) == VotesReceived(quotes, user) + (if q.owner == user then q.voteCount else 0)
    ensures CategoryTally(quotes + [q], user, c) == CategoryTally(quotes, user, c)
      + (if q.owner == user && q.category.Some? && Lower(q.category.value) == c then 1 else 0)
  {
    assert [q][1..] == [];
    QuotesCreatedAppend(quotes, [q], user);
    VotesReceivedAppend(quotes, [q], user);
    CategoryTallyAppend(quotes, [q], user, c);
  }

  /** A created quote adds one to its creator's quote count and to nobody else's; vote totals stay. */
  lemma CreateCountsOneMoreQuote(db: Db, dto: CreateQuoteDto, user: UserId, now: int, other: UserId)
    requires CreateQuote(db, dto, user, now).reply.Success?
    ensures var after := CreateQuote(db, dto, user, now).state.quotes;
      && QuotesCreated(after, other) == QuotesCreated(db.quotes, other) + (if other == user then 1 else 0)
      && VotesReceived(after, other) == VotesReceived(db.quotes, other)
  {
    var r := CreateQuote(db, dto, user, now);
    var q := r.reply.value;
    assert r.state.quotes == db.quotes + [q] && q.owner == user && q.voteCount == 0;
    AppendRowTotals(db.quotes, q, other, []);
  }

  /** A stored category has no upper-case letter, so `LOWER` groups it under itself. */
  lemma StoredCategoryIsLower(category: Option<string>)
    requires FitsNullable(StoredCategory(category), CategoryWidth)
    ensures var stored := StoredNullable(StoredCategory(category), CategoryWidth);
      stored.Some? ==> Lower(stored.value) == stored.value
  {
    var stored := StoredNullable(StoredCategory(category), CategoryWidth);
    if stored.Some? {
      var lowered := StoredCategory(category).value;
      assert lowered == Lower(category.value);
      assert stored.value == lowered[..|stored.value|];
      LoweredPrefixNoUpper(category.value, |stored.value|);
      LowerOfNoUpper(stored.value);
    }
  }

  /** A category of at most 50 characters is stored exactly as `StoredCategory` lower-cases it. */
  lemma ShortCategoryStoredWhole(category: Option<string>)
    requires category.Some? && |category.value| <= CategoryWidth
    ensures FitsNullable(StoredCategory(category), CategoryWidth)
    ensures StoredNullable(StoredCategory(category), CategoryWidth) == StoredCategory(category)
  {
  }

  /**
   * A created quote with a category adds one to that category's group of its
   * creator's distribution and leaves every other group as it was. A
   * category of at most 50 characters is stored exactly as
   * `StoredCategory` lower-cases it.
   */
  lemma CreateCountsItsCategory(db: Db, dto: CreateQuoteDto, user: UserId, now: int, c: string)
    requires CreateQuote(db, dto, user, now).reply.Success?
    ensures var r := CreateQuote(db, dto, user, now);
      CountIn(Distribution(r.state.quotes, user), c)
        == CountIn(Distribution(db.quotes, user), c) + (if r.reply.value.category == Some(c) then 1 else 0)
    ensures dto.category.Some? && |dto.category.value| <= CategoryWidth ==>
      CreateQuote(db, dto, user, now).reply.value.category == StoredCategory(dto.category)
  {
    var r := CreateQuote(db, dto, user, now);
    var q := r.reply.value;
    assert r.state.quotes == db.quotes + [q] && q.owner == user;
    assert FitsNullable(StoredCategory(dto.category), CategoryWidth);
    assert q.category == StoredNullable(StoredCategory(dto.category), CategoryWidth);
    StoredCategoryIsLower(dto.category);
    AppendRowTotals(db.quotes, q, user, c);
    DistributionCounts(r.state.quotes, user, c);
    DistributionCounts(db.quotes, user, c);
    if dto.category.Some? && |dto.category.value| <= CategoryWidth {
      ShortCategoryStoredWhole(dto.category);
    }
  }

  /**
   * On a request the validators accept, the trimmed author always fits its
   * column, so the insert is refused only for a category too long for
   * `VARCHAR(50)`, and the author is stored exactly as trimmed.
   */
  lemma ValidCreateRejectedOnlyByCategory(db: Db, dto: CreateQuoteDto, user: UserId, now: int)
    requires ValidCreate(dto)
    ensures var r := CreateQuote(db, dto, user, now);
      && (r.reply == Failure(Rejected) <==>
            !IsDuplicate(db.quotes, user, dto.content) && !FitsNullable(StoredCategory(dto.category), CategoryWidth))
      && (r.reply.Success? ==> r.reply.value.author == JsTrim(dto.author))
  {
    var t := JsTrim(dto.author);
    var i :| Surrounds(dto.author, i, t, IsJsSpace);
    assert |t| <= AuthorMaxLength < AuthorWidth;
  }
}

=== FILE: quote_lifecycle.dfy ===
/**
 * Properties of the quote write side: tag cleaning is order-preserving and
 * idempotent, a created quote is caught by the duplicate check, every
 * mutation keeps the ledger invariant, and the zero-vote lockout means a
 * mutated or deleted quote carries no vote.
 */
module QuoteLifecycle {
  import opened Wrappers
  import opened Text
  import opened Store
  import opened QuoteDto
  import opened QuoteService

  /** Cleaning works tag by tag: the tags of a concatenation clean to the concatenation of the cleaned parts. */
  lemma {:induction false} CleanAllAppend(a: seq<string>, b: seq<string>)
    ensures CleanAll(a + b) == CleanAll(a) + CleanAll(b)
  {
    if |a| == 0 {
      assert a + b == b;
    } else {
      assert (a + b)[1..] == a[1..] + b;
      CleanAllAppend(a[1..], b);
    }
  }

  /** A single tag cleans to nothing when blank and to its cleaned form otherwise. */
  lemma CleanAllSingleton(t: string)
    ensures CleanAll([t]) == if IsBlank(t) then [] else [CleanTag(t)]
  {
    assert [t][1..] == [];
  }

  /** `f` of every element of `xs` that `drop` does not reject, in order. */
  function KeepMap(xs: seq<string>, f: string -> string, drop: string -> bool): seq<string>
  {
    if |xs| == 0 then []
    else if drop(xs[0]) then KeepMap(xs[1..], f, drop)
    else [f(xs[0])] + KeepMap(xs[1..], f, drop)
  }

  /** Tag cleaning is the keep-and-map of `CleanTag` over the non-blank tags. */
  lemma {:induction false} CleanAllIsKeepMap(tags: seq<string>)
    ensures CleanAll(tags) == KeepMap(tags, CleanTag, IsBlank)
  {
    if |tags| > 0 {
      CleanAllIsKeepMap(tags[1..]);
    }
  }

  /** An element is kept exactly when it is `f` of an element not dropped. */
  lemma {:induction false} KeepMapMembers(xs: seq<string>, f: string -> string, drop: string -> bool, c: string)
    ensures c in KeepMap(xs, f, drop) <==> exists k :: 0 <= k < |xs| && !drop(xs[k]) && c == f(xs[k])
  {
    if |xs| > 0 {
      var tail := xs[1..];
      KeepMapMembers(tail, f, drop, c);
      if c in KeepMap(tail, f, drop) {
        var k :| 0 <= k < |tail| && !drop(tail[k]) && c == f(tail[k]);
        assert xs[k + 1] == tail[k];
      }
      if exists k :: 0 <= k < |xs| && !drop(xs[k]) && c == f(xs[k]) {
        var k :| 0 <= k < |xs| && !drop(xs[k]) && c == f(xs[k]);
        if k > 0 {
          assert tail[k - 1] == xs[k];
        }
      }
    }
  }

  /** The cleaned list holds exactly the cleaned forms of the request's non-blank tags. */
  lemma CleanAllMembers(tags: seq<string>, c: string)
    ensures c in CleanAll(tags) <==> exists k :: 0 <= k < |tags| && !IsBlank(tags[k]) && c == CleanTag(tags[k])
  {
    CleanAllIsKeepMap(tags);
    KeepMapMembers(tags, CleanTag, IsBlank, c);
  }

  /** A tag that is already clean is kept as it is. */
  lemma CleanTagOfClean(t: string)
    requires IsCleanTag(t)
    ensures !IsBlank(t) && CleanTag(t) == t
  {
    assert !IsSpaceAt(t, 0);
    TrimByIdempotent(t, IsJsSpace);
    assert Lower(t) == t;
  }

  /** Position `k` of `t` holds a white-space character. */
  predicate IsSpaceAt(t: string, k: int)
  {
    0 <= k < |t| && IsJsSpace(t[k])
  }

  /** Keep-and-map leaves a list alone when it drops nothing and `f` fixes every element. */
  lemma {:induction false} KeepMapFixed(xs: seq<string>, f: string -> string, drop: string -> bool)
    requires forall k :: 0 <= k < |xs| ==> !drop(xs[k]) && f(xs[k]) == xs[k]
    ensures KeepMap(xs, f, drop) == xs
  {
    if |xs| > 0 {
      assert forall k :: 0 <= k < |xs[1..]| ==> xs[1..][k] == xs[k + 1];
      KeepMapFixed(xs[1..], f, drop);
      assert [xs[0]] + xs[1..] == xs;
    }
  }

  /** A list of clean tags is its own cleaning. */
  lemma CleanAllOfClean(tags: seq<string>)
    requires AllClean(tags)
    ensures CleanAll(tags) == tags
  {
    forall k | 0 <= k < |tags| ensures !IsBlank(tags[k]) && CleanTag(tags[k]) == tags[k] {
      CleanTagOfClean(tags[k]);
    }
    CleanAllIsKeepMap(tags);
    KeepMapFixed(tags, CleanTag, IsBlank);
  }

  /** Between one and ten clean tags are stored as they are. */
  lemma CleanTagsOfClean(v: seq<string>)
    requires AllClean(v) && 1 <= |v| <= MaxTags
    ensures CleanTags(Some(v)) == Some(v)
  {
    CleanAllOfClean(v);
    CleanTagOfClean(v[0]);
    var r := CleanTags(Some(v));
    assert r.Some?;
    assert |r.value| == |v|;
    assert v[..|v|] == v;
  }

  /** Cleaning the stored tags again changes nothing. */
  lemma CleanTagsIdempotent(tags: Option<seq<string>>)
    ensures CleanTags(CleanTags(tags)) == CleanTags(tags)
  {
    var r := CleanTags(tags);
    if r.Some? {
      CleanTagsOfClean(r.value);
    }
  }

  /** Content as stored by create survives SQL `TRIM` untouched. */
  lemma SqlTrimOfJsTrimmed(s: string)
    ensures SqlTrim(JsTrim(s)) == JsTrim(s)
  {
    var t := JsTrim(s);
    assert Trimmed(t, IsJsSpace);
    TrimByIdempotent(t, IsSqlSpace);
  }

  /** Appending a row of `user` whose content normalises like `content` makes `content` a duplicate. */
  lemma AppendedRowMakesDuplicate(quotes: seq<Quote>, q: Quote, user: UserId, content: string)
    requires q.owner == user && Lower(SqlTrim(q.content)) == Lower(JsTrim(content))
    ensures IsDuplicate(quotes + [q], user, content)
  {
    assert (quotes + [q])[|quotes|] == q;
  }

  /**
   * The duplicate check looks only at the user's own rows: after appending a
   * row, content is a duplicate exactly when it was one before or the new
   * row is the user's and normalises to the same text.
   */
  lemma DuplicateAfterAppend(quotes: seq<Quote>, q: Quote, user: UserId, content: string)
    ensures IsDuplicate(quotes + [q], user, content) <==>
      IsDuplicate(quotes, user, content) || (q.owner == user && Lower(SqlTrim(q.content)) == Lower(JsTrim(content)))
  {
    var same := (x: Quote) => x.owner == user && Lower(SqlTrim(x.content)) == Lower(JsTrim(content));
    SomeAfterAppend(quotes, q, same);
  }

  /** Some row of `rows + [x]` satisfies `p` exactly when some row of `rows` does or `x` does. */
  lemma SomeAfterAppend(rows: seq<Quote>, x: Quote, p: Quote -> bool)
    ensures (exists i :: 0 <= i < |rows + [x]| && p((rows + [x])[i])) <==>
      (exists i :: 0 <= i < |rows| && p(rows[i])) || p(x)
  {
    var all := rows + [x];
    if exists i :: 0 <= i < |all| && p(all[i]) {
      var i :| 0 <= i < |all| && p(all[i]);
      if i < |rows| {
        assert all[i] == rows[i];
      }
    }
    if exists i :: 0 <= i < |rows| && p(rows[i]) {
      var i :| 0 <= i < |rows| && p(rows[i]);
      assert all[i] == rows[i];
    }
    assert all[|rows|] == x;
  }

  /**
   * Once a quote is created, the same user creating content that normalises
   * to the same text is refused with a conflict.
   */
  lemma CreateThenSameContentConflicts(db: Db, dto: CreateQuoteDto, dto2: CreateQuoteDto, user: UserId, now: int, now2: int)
    requires CreateQuote(db, dto, user, now).reply.Success?
    ensures Lower(JsTrim(dto2.content)) == Lower(JsTrim(dto.content)) ==>
      CreateQuote(CreateQuote(db, dto, user, now).state, dto2, user, now2).reply == Failure(Conflict)
  {
    var r := CreateQuote(db, dto, user, now);
    var q := r.reply.value;
    if Lower(JsTrim(dto2.content)) == Lower(JsTrim(dto.content)) {
      SqlTrimOfJsTrimmed(dto.content);
      AppendedRowMakesDuplicate(db.quotes, q, user, dto2.content);
    }
  }

  /**
   * The length bounds are checked before trimming, so a request that passes
   * validation can still store content shorter than the minimum.
   */
  lemma ValidRequestMayStoreShortContent()
    ensures var dto := CreateQuoteDto("a         ", "ab", None, None);
      && ValidCreate(dto)
      && CreateQuote(Db([], [], 1), dto, 7, 0).reply.Success?
      && |CreateQuote(Db([], [], 1), dto, 7, 0).reply.value.content| < ContentMinLength
  {
    var dto := CreateQuoteDto("a         ", "ab", None, None);
    PaddedContentTrims();
    assert |JsTrim(dto.author)| <= 2;
    assert CreateFits(dto);
    assert !IsDuplicate([], 7, dto.content);
  }

  /** The content of the witness above trims to a single letter. */
  lemma PaddedContentTrims()
    ensures JsTrim("a         ") == "a"
  {
    var s := "a         ";
    assert forall k :: 1 <= k < |s| ==> s[k] == ' ';
    assert !IsJsSpace(s[0]) && IsJsSpace(' ');
    var r := JsTrim(s);
    var i :| Surrounds(s, i, r, IsJsSpace);
    assert i == 0;
    assert r[|r| - 1] == s[|r| - 1];
    assert |r| == 1;
    assert r == s[..1];
  }

  /** Appending a row with the next serial id and a zero counter keeps the ledger invariant. */
  lemma AppendFreshQuoteConsistent(db: Db, q: Quote)
    requires Consistent(db)
    requires q.id == db.nextId && q.voteCount == 0 && RowFits(q)
    ensures Consistent(Db(db.quotes + [q], db.votes, db.nextId + 1))
  {
    var db' := Db(db.quotes + [q], db.votes, db.nextId + 1);
    var n := |db.quotes|;
    assert forall j :: 0 <= j < n ==> db'.quotes[j] == db.quotes[j];
    assert db'.quotes[n] == q;
    assert Ids(db.quotes) <= Ids(db'.quotes) by {
      forall id | id in Ids(db.quotes) ensures id in Ids(db'.quotes) {
        var j :| 0 <= j < n && db.quotes[j].id == id;
        assert db'.quotes[j].id == id;
      }
    }
    forall k | 0 <= k < |db.votes| ensures db.votes[k].quote != q.id {
      var j :| 0 <= j < n && db.quotes[j].id == db.votes[k].quote;
    }
    assert CountFor(db.votes, q.id) == 0;
  }

  /** Creating a quote keeps the ledger invariant: its fresh id has no vote row and its counter is 0. */
  lemma CreatePreservesConsistent(db: Db, dto: CreateQuoteDto, user: UserId, now: int)
    requires Consistent(db)
    ensures Consistent(CreateQuote(db, dto, user, now).state)
  {
    var r := CreateQuote(db, dto, user, now);
    if r.reply.Success? {
      AppendFreshQuoteConsistent(db, r.reply.value);
    }
  }

  /** Rewriting the text fields of one row keeps the ledger invariant: ids and counters do not move. */
  lemma RewriteKeepsConsistent(db: Db, i: nat, r: Step<Quote, QuoteError>, now: int)
    requires Consistent(db)
    requires i < |db.quotes| && r.reply.Success? && RowRewritten(db, i, r, now) && RowFits(r.reply.value)
    ensures Consistent(r.state)
  {
    var db' := r.state;
    assert forall j :: 0 <= j < |db.quotes| ==> RowFits(db'.quotes[j]) by {
      forall j | 0 <= j < |db.quotes| ensures RowFits(db'.quotes[j]) {
        if j != i {
          assert db'.quotes[j] == db.quotes[j];
        }
      }
    }
    assert forall j :: 0 <= j < |db.quotes| ==> db'.quotes[j].id == db.quotes[j].id && db'.quotes[j].voteCount == db.quotes[j].voteCount;
    assert Ids(db'.quotes) == Ids(db.quotes) by {
      forall x | x in Ids(db.quotes) ensures x in Ids(db'.quotes) {
        var j :| 0 <= j < |db.quotes| && db.quotes[j].id == x;
        assert db'.quotes[j].id == x;
      }
    }
  }

  /** Updating a quote keeps the ledger invariant. */
  lemma UpdatePreservesConsistent(db: Db, id: QuoteId, dto: UpdateQuoteDto, user: UserId, now: int)
    requires Consistent(db)
    ensures Consistent(UpdateQuote(db, id, dto, user, now).state)
  {
    var r := UpdateQuote(db, id, dto, user, now);
    if r.reply.Success? {
      RewriteKeepsConsistent(db, MutationGuard(db.quotes, id, user).value, r, now);
    }
  }

  /** The corrected update keeps the ledger invariant too. */
  lemma UpdateFixedPreservesConsistent(db: Db, id: QuoteId, dto: UpdateQuoteDto, user: UserId, now: int)
    requires Consistent(db)
    ensures Consistent(UpdateQuoteFixed(db, id, dto, user, now).state)
  {
    var r := UpdateQuoteFixed(db, id, dto, user, now);
    if r.reply.Success? {
      RewriteKeepsConsistent(db, MutationGuard(db.quotes, id, user).value, r, now);
    }
  }

  /**
   * As written, a valid request that leaves out the content (here: one that
   * changes only the category) is refused for a quote its owner may still
   * edit, and nothing changes.
   */
  lemma ValidPartialUpdateRejected(db: Db, id: QuoteId, user: UserId, now: int, category: string)
    requires MutationGuard(db.quotes, id, user).Success?
    ensures var dto := UpdateQuoteDto(None, None, Some(category), None);
      && ValidUpdate(dto)
      && UpdateQuote(db, id, dto, user, now) == Step(db, Failure(Rejected))
  {
  }

  /**
   * Corrected, an update that carries only some fields keeps the stored
   * value of every field it leaves out.
   */
  lemma FixedKeepsOmittedFields(db: Db, id: QuoteId, dto: UpdateQuoteDto, user: UserId, now: int)
    requires UpdateQuoteFixed(db, id, dto, user, now).reply.Success?
    requires QuotesFit(db)
    ensures var i := MutationGuard(db.quotes, id, user).value;
      var q := UpdateQuoteFixed(db, id, dto, user, now).reply.value;
      && (dto.content.None? ==> q.content == db.quotes[i].content)
      && (dto.author.None? ==> q.author == db.quotes[i].author)
      && (dto.category.None? ==> q.category == db.quotes[i].category)
      && (dto.tags.None? ==> q.tags == db.quotes[i].tags)
  {
    var i := MutationGuard(db.quotes, id, user).value;
    assert |db.quotes[i].author| <= AuthorWidth;
    assert db.quotes[i].category.Some? ==> |db.quotes[i].category.value| <= CategoryWidth;
  }

  /**
   * Corrected, a valid request whose category (if any) fits its column
   * succeeds exactly when the guards pass, on a table whose rows fit their columns.
   */
  lemma FixedSucceedsIffGuards(db: Db, id: QuoteId, dto: UpdateQuoteDto, user: UserId, now: int)
    requires QuotesFit(db) && ValidUpdate(dto)
    requires dto.category.Some? ==> |dto.category.value| <= CategoryWidth
    ensures UpdateQuoteFixed(db, id, dto, user, now).reply.Success? <==> MutationGuard(db.quotes, id, user).Success?
  {
    if MutationGuard(db.quotes, id, user).Success? {
      var i := MutationGuard(db.quotes, id, user).value;
      assert |db.quotes[i].author| <= AuthorWidth;
      assert db.quotes[i].category.Some? ==> |db.quotes[i].category.value| <= CategoryWidth;
      assert MergedFits(db.quotes[i], dto);
    }
  }

  /**
   * The lockout is sound on a consistent ledger: a quote that passes the
   * update/delete guards has no vote row pointing at it.
   */
  lemma LockoutMeansNoVotes(db: Db, id: QuoteId, user: UserId)
    requires CountsMatch(db)
    requires MutationGuard(db.quotes, id, user).Success?
    ensures forall k :: 0 <= k < |db.votes| ==> db.votes[k].quote != id
  {
    var i := MutationGuard(db.quotes, id, user).value;
    assert CountFor(db.votes, db.quotes[i].id) == 0;
  }

  /** On a consistent ledger a successful delete cascades no vote row away. */
  lemma DeleteCascadesNothing(db: Db, id: QuoteId, user: UserId)
    requires CountsMatch(db)
    requires DeleteQuote(db, id, user).reply.Success?
    ensures DeleteQuote(db, id, user).state.votes == db.votes
  {
    LockoutMeansNoVotes(db, id, user);
    assert CountFor(db.votes, id) == 0;
  }

  /** Removing row `i` keeps every row whose id differs from row `i`'s. */
  lemma RemoveAtKeepsOthers(quotes: seq<Quote>, i: nat)
    requires i < |quotes|
    ensures forall q :: q in quotes && q.id != quotes[i].id ==> q in RemoveAt(quotes, i)
  {
    var rest := RemoveAt(quotes, i);
    forall q | q in quotes && q.id != quotes[i].id ensures q in rest {
      var j :| 0 <= j < |quotes| && quotes[j] == q;
      if j < i { assert rest[j] == q; } else { assert rest[j - 1] == q; }
    }
  }

  /** With unique ids, removing row `i` removes exactly its id. */
  lemma RemoveAtIds(db: Db, i: nat)
    requires i < |db.quotes| && QuoteIdsUnique(db)
    ensures Ids(RemoveAt(db.quotes, i)) == Ids(db.quotes) - {db.quotes[i].id}
  {
    var rest := RemoveAt(db.quotes, i);
    assert forall m :: 0 <= m < |rest| ==> rest[m] == db.quotes[OriginalIndex(i, m)] && OriginalIndex(i, m) != i;
    RemoveAtKeepsOthers(db.quotes, i);
    forall x | x in Ids(db.quotes) - {db.quotes[i].id} ensures x in Ids(rest) {
      var j :| 0 <= j < |db.quotes| && db.quotes[j].id == x;
      assert db.quotes[j] in rest;
    }
  }

  /**
   * A successful delete takes exactly the deleted id out of the table; every
   * other quote stays, unchanged.
   */
  lemma DeleteRemovesExactlyThatQuote(db: Db, id: QuoteId, user: UserId)
    requires QuoteIdsUnique(db)
    requires DeleteQuote(db, id, user).reply.Success?
    ensures Ids(DeleteQuote(db, id, user).state.quotes) == Ids(db.quotes) - {id}
    ensures forall q :: q in db.quotes && q.id != id ==> q in DeleteQuote(db, id, user).state.quotes
  {
    var i := MutationGuard(db.quotes, id, user).value;
    assert DeleteQuote(db, id, user).state.quotes == RemoveAt(db.quotes, i);
    RemoveAtKeepsOthers(db.quotes, i);
    RemoveAtIds(db, i);
  }

  /** Removing a quote row keeps the per-row constraints of the quote table. */
  lemma RemoveQuoteKeepsRows(db: Db, i: nat)
    requires i < |db.quotes|
    requires QuoteIdsUnique(db) && IdsBelowSerial(db) && CountsMatch(db)
    ensures var db' := db.(quotes := RemoveAt(db.quotes, i));
      QuoteIdsUnique(db') && IdsBelowSerial(db') && CountsMatch(db')
  {
    var qs := RemoveAt(db.quotes, i);
    assert forall m :: 0 <= m < |qs| ==> qs[m] == db.quotes[OriginalIndex(i, m)];
  }

  /** Removing a quote that no vote row references keeps every vote's reference valid. */
  lemma RemoveUnvotedQuoteKeepsReferences(db: Db, i: nat)
    requires i < |db.quotes| && VotesReferenceQuotes(db)
    requires forall k :: 0 <= k < |db.votes| ==> db.votes[k].quote != db.quotes[i].id
    ensures VotesReferenceQuotes(db.(quotes := RemoveAt(db.quotes, i)))
  {
    var qs := RemoveAt(db.quotes, i);
    forall k | 0 <= k < |db.votes| ensures db.votes[k].quote in Ids(qs) {
      var j :| 0 <= j < |db.quotes| && db.quotes[j].id == db.votes[k].quote;
      var m := if j < i then j else j - 1;
      assert qs[m].id == db.quotes[j].id;
    }
  }

  /** Deleting a quote keeps the ledger invariant. */
  lemma DeletePreservesConsistent(db: Db, id: QuoteId, user: UserId)
    requires Consistent(db)
    ensures Consistent(DeleteQuote(db, id, user).state)
  {
    var r := DeleteQuote(db, id, user);
    if r.reply.Success? {
      var i := MutationGuard(db.quotes, id, user).value;
      DeleteCascadesNothing(db, id, user);
      LockoutMeansNoVotes(db, id, user);
      RemoveQuoteKeepsRows(db, i);
      RemoveUnvotedQuoteKeepsReferences(db, i);
      assert r.state == db.(quotes := RemoveAt(db.quotes, i));
    }
  }
}

=== FILE: quote_listing.dfy ===
/**
 * The request-independent part of the two listing queries: which column and
 * direction reach `ORDER BY`, which rows `LIMIT`/`OFFSET` select, and the
 * page count reported back.
 */
module QuoteListing {
  import opened Wrappers
  import opened Text
  import opened QuoteDto

  const DefaultSortField := "vote_count"

  /** The columns the public listing may be sorted by. */
  const AllQuotesSortFields: seq<string> := ["vote_count", "created_at", "updated_at", "author"]

  /** The columns a user's own listing may be sorted by. */
  const UserQuotesSortFields: seq<string> := ["vote_count", "created_at", "updated_at"]

  datatype Direction = Asc | Desc

  /** What a listing query hands to the database. */
  datatype Plan = Plan(sortField: string, direction: Direction, limit: int, offset: int)

  /** The pagination block of `getUserQuotes`. */
  datatype Pagination = Pagination(currentPage: int, totalPages: int, totalItems: int, itemsPerPage: int)

  /**
   * The sort column: the requested one when whitelisted, `vote_count`
   * otherwise. Only whitelisted names are ever spliced into the SQL text.
   */
  function SortField(sortBy: Option<string>, whitelist: seq<string>): (r: string)
    requires DefaultSortField in whitelist
    ensures r in whitelist
    ensures sortBy.Some? && sortBy.value in whitelist ==> r == sortBy.value
    ensures sortBy.None? || sortBy.value !in whitelist ==> r == DefaultSortField
  {
    match sortBy
    case Some(s) => if s in whitelist then s else DefaultSortField
    case None => DefaultSortField
  }

  /**
   * Both listings whitelist `vote_count`, and only the public one may be
   * sorted by author: a user's own listing falls back to `vote_count`.
   */
  lemma AuthorSortOnlyInPublicListing()
    ensures DefaultSortField in AllQuotesSortFields && DefaultSortField in UserQuotesSortFields
    ensures SortField(Some("author"), AllQuotesSortFields) == "author"
    ensures SortField(Some("author"), UserQuotesSortFields) == DefaultSortField
  {
    assert AllQuotesSortFields[3] == "author";
    assert "author" !in UserQuotesSortFields by {
      assert "author"[0] != "vote_count"[0];
      assert "author"[0] != "created_at"[0];
      assert "author"[0] != "updated_at"[0];
    }
  }

  /** Ascending only when the upper-cased request is exactly `ASC`; descending by default. */
  function SortDirection(sortOrder: Option<string>): (r: Direction)
    ensures r == Asc <==> sortOrder.Some? && Upper(sortOrder.value) == "ASC"
  {
    match sortOrder
    case Some(s) => if Upper(s) == "ASC" then Asc else Desc
    case None => Desc
  }

  /** The rows skipped before the requested page. */
  function Offset(page: int, limit: int): (r: int)
    requires page >= 1 && limit >= 1
    ensures r >= 0 && r % limit == 0
    ensures r / limit == page - 1
  {
    var r := (page - 1) * limit;
    DivOfMultiple(page - 1, limit);
    r
  }

  /** Dividing a multiple of `d` by `d` recovers the factor exactly. */
  lemma DivOfMultiple(q: int, d: int)
    requires q >= 0 && d >= 1
    ensures (q * d) / d == q && (q * d) % d == 0
  {
    var x := q * d;
    var q', m' := x / d, x % d;
    assert x == q' * d + m';
    if q' < q {
      MulMonotone(q' + 1, q, d);
    } else if q < q' {
      MulMonotone(q + 1, q', d);
    }
  }

  /** `Math.ceil(total / limit)`: the fewest pages of `limit` rows that hold `total` rows. */
  function TotalPages(total: nat, limit: int): (r: nat)
    requires limit >= 1
    ensures r * limit >= total
    ensures r > 0 ==> (r - 1) * limit < total
  {
    (total + limit - 1) / limit
  }

  /** The plan of a listing query, after defaults and whitelisting. */
  function ListingPlan(q: QuoteQueryDto, whitelist: seq<string>): (r: Plan)
    requires ValidQuery(q)
    requires DefaultSortField in whitelist
    ensures r.sortField in whitelist
    ensures q.sortBy.Some? && q.sortBy.value in whitelist ==> r.sortField == q.sortBy.value
    ensures q.sortBy.None? || q.sortBy.value !in whitelist ==> r.sortField == DefaultSortField
    ensures r.direction == Asc <==> q.sortOrder.Some? && Upper(q.sortOrder.value) == "ASC"
    ensures r.limit == Limit(q)
    ensures 1 <= r.limit <= MaxLimit && r.offset >= 0
    ensures r.offset == (Page(q) - 1) * r.limit
  {
    Plan(SortField(q.sortBy, whitelist), SortDirection(q.sortOrder), Limit(q), Offset(Page(q), Limit(q)))
  }

  /** The pagination block `getUserQuotes` returns for `total` matching rows. */
  function UserPagination(q: QuoteQueryDto, total: nat): (r: Pagination)
    requires ValidQuery(q)
    ensures r.currentPage == Page(q) && r.itemsPerPage == Limit(q) && r.totalItems == total
    ensures r.totalPages * r.itemsPerPage >= total
    ensures r.totalPages > 0 ==> (r.totalPages - 1) * r.itemsPerPage < total
  {
    Pagination(Page(q), TotalPages(total, Limit(q)), total, Limit(q))
  }

  /**
   * The rows the plan fetches are the page the pagination block reports: the
   * plan skips `currentPage - 1` pages of `itemsPerPage` rows. A page and a
   * limit the request gives are served as given; without them the first ten
   * rows are served.
   */
  lemma PlanMatchesPagination(q: QuoteQueryDto, whitelist: seq<string>, total: nat)
    requires ValidQuery(q) && DefaultSortField in whitelist
    ensures var plan, pag := ListingPlan(q, whitelist), UserPagination(q, total);
      && plan.limit == pag.itemsPerPage
      && plan.offset == (pag.currentPage - 1) * pag.itemsPerPage
      && (q.page.Some? ==> pag.currentPage == q.page.value)
      && (q.limit.Some? ==> plan.limit == q.limit.value)
      && (q.page.None? && q.limit.None? ==> plan.offset == 0 && plan.limit == DefaultLimit)
  {
  }

  /**
   * The sort direction is ascending exactly for the case variants of `asc`,
   * with long s allowed for the `s`; every other string, including the
   * default, sorts descending.
   */
  lemma AscendingIffAsc(s: string)
    ensures SortDirection(Some(s)) == Asc <==>
      |s| == 3 && s[0] in "aA" && s[1] in ['s', 'S', LongS] && s[2] in "cC"
  {
    var u := Upper(s);
    if |s| == 3 && s[0] in "aA" && s[1] in ['s', 'S', LongS] && s[2] in "cC" {
      assert u == "ASC";
    }
    if u == "ASC" {
      assert u[0] == 'A' && u[1] == 'S' && u[2] == 'C';
    }
  }

  /**
   * A page holds rows exactly when it is one of the reported pages: page
   * `page` starts inside the result set iff `page <= totalPages`.
   */
  lemma PageInRangeIffRowsRemain(page: int, limit: int, total: nat)
    requires page >= 1 && limit >= 1
    ensures page <= TotalPages(total, limit) <==> Offset(page, limit) < total
  {
    var n := TotalPages(total, limit);
    var o := Offset(page, limit);
    if page <= n {
      MulMonotone(page - 1, n - 1, limit);
    } else {
      MulMonotone(n, page - 1, limit);
    }
  }

  /** Multiplying by a non-negative factor keeps order. */
  lemma MulMonotone(a: int, b: int, c: int)
    requires 0 <= a <= b && c >= 0
    ensures a * c <= b * c
  {
  }
}

=== FILE: quote_reports.dfy ===
/**
 * The read-only reports over the quote table: the three most-voted quotes and
 * a user's personal summary (quotes created, votes received, rank among
 * users, category distribution).
 */
module QuoteReports {
  import opened Wrappers
  import opened Text
  import opened Store

  const TopCount := 3

  /** An entry of the top-voted list; ranks count from 1 in list order. */
  datatype RankedQuote = RankedQuote(rank: nat, quote: Quote)

  /** One group of the category distribution. */
  datatype CategoryCount = CategoryCount(category: string, count: nat)

  /** The personal summary; the percentage of each category is not modelled. */
  datatype Summary = Summary(
    totalQuotesCreated: nat,
    totalVotesReceived: int,
    ranking: Option<nat>,
    categoryDistribution: seq<CategoryCount>)

  // ---------------------------------------------------------------------------
  // Top-voted
  // ---------------------------------------------------------------------------

  /** `ORDER BY vote_count DESC, created_at DESC`: `a` may come before `b`. */
  predicate RanksBefore(a: Quote, b: Quote)
  {
    a.voteCount > b.voteCount || (a.voteCount == b.voteCount && a.createdAt >= b.createdAt)
  }

  predicate SortedByRank(qs: seq<Quote>)
  {
    forall i, j :: 0 <= i < j < |qs| ==> RanksBefore(qs[i], qs[j])
  }

  /** Inserts `x` before the first row it may precede. */
  function Insert(x: Quote, qs: seq<Quote>): (r: seq<Quote>)
    ensures multiset(r) == multiset(qs) + multiset{x}
  {
    if |qs| == 0 then [x]
    else if RanksBefore(x, qs[0]) then [x] + qs
    else
      assert qs == [qs[0]] + qs[1..];
      [qs[0]] + Insert(x, qs[1..])
  }

  /** Inserting into a sorted list keeps it sorted. */
  lemma {:induction false} InsertSorted(x: Quote, qs: seq<Quote>)
    requires SortedByRank(qs)
    ensures SortedByRank(Insert(x, qs))
  {
    if |qs| > 0 && !RanksBefore(x, qs[0]) {
      var rest := Insert(x, qs[1..]);
      InsertSorted(x, qs[1..]);
      forall k | 0 <= k < |rest| ensures RanksBefore(qs[0], rest[k]) {
        assert rest[k] in multiset(rest);
        if rest[k] != x {
          assert rest[k] in multiset(qs[1..]);
          var j :| 0 <= j < |qs[1..]| && qs[1..][j] == rest[k];
          assert qs[j + 1] == rest[k];
        }
      }
      var r := [qs[0]] + rest;
      assert forall k :: 1 <= k < |r| ==> r[k] == rest[k - 1];
    }
  }

  /** The table sorted by votes, then recency; ties keep scan order. */
  function SortByRank(qs: seq<Quote>): (r: seq<Quote>)
    ensures SortedByRank(r)
    ensures multiset(r) == multiset(qs)
  {
    if |qs| == 0 then []
    else
      assert qs == [qs[0]] + qs[1..];
      var rest := SortByRank(qs[1..]);
      InsertSorted(qs[0], rest);
      Insert(qs[0], rest)
  }

  /** Every row a sorted prefix leaves out ranks no better than each row it keeps. */
  lemma TopPrefixIsTop(sorted: seq<Quote>, n: nat, q: Quote)
    requires SortedByRank(sorted) && n <= |sorted|
    requires q in multiset(sorted) && q !in sorted[..n]
    ensures forall k :: 0 <= k < n ==> RanksBefore(sorted[k], q)
  {
    var m :| 0 <= m < |sorted| && sorted[m] == q;
    assert forall k :: 0 <= k < n ==> sorted[..n][k] == sorted[k];
  }

  /** A prefix of a sorted permutation of `qs` is sorted, drawn from `qs`, and ahead of the rest of `qs`. */
  lemma SortedPrefixFacts(qs: seq<Quote>, sorted: seq<Quote>, n: nat)
    requires SortedByRank(sorted) && multiset(sorted) == multiset(qs) && n <= |sorted|
    ensures SortedByRank(sorted[..n])
    ensures forall k :: 0 <= k < n ==> sorted[..n][k] in qs
    ensures forall q :: q in qs && q !in sorted[..n] ==> forall k :: 0 <= k < n ==> RanksBefore(sorted[..n][k], q)
  {
    var r := sorted[..n];
    assert forall k :: 0 <= k < n ==> r[k] == sorted[k] && sorted[k] in multiset(qs);
    forall q | q in qs && q !in r ensures forall k :: 0 <= k < n ==> RanksBefore(r[k], q) {
      assert q in multiset(sorted);
      TopPrefixIsTop(sorted, n, q);
    }
  }

  /**
   * The quotes `getTopVotedQuotes` returns: at most three, best first, each
   * from the table; every quote left out ranks no better than each quote kept.
   */
  function TopQuotes(qs: seq<Quote>): (r: seq<Quote>)
    ensures |r| == if |qs| < TopCount then |qs| else TopCount
    ensures SortedByRank(r)
    ensures forall k :: 0 <= k < |r| ==> r[k] in qs
    ensures forall q :: q in qs && q !in r ==> forall k :: 0 <= k < |r| ==> RanksBefore(r[k], q)
    ensures multiset(r) <= multiset(qs)
  {
    var sorted := SortByRank(qs);
    assert |sorted| == |multiset(sorted)| == |multiset(qs)| == |qs|;
    var n := if |sorted| < TopCount then |sorted| else TopCount;
    SortedPrefixFacts(qs, sorted, n);
    assert sorted == sorted[..n] + sorted[n..];
    assert multiset(sorted) == multiset(sorted[..n]) + multiset(sorted[n..]);
    sorted[..n]
  }

  /** `getTopVotedQuotes`: the top quotes numbered 1, 2, 3 in list order. */
  function TopVoted(db: Db): (r: seq<RankedQuote>)
    ensures |r| == |TopQuotes(db.quotes)|
    ensures forall k :: 0 <= k < |r| ==> r[k] == RankedQuote(k + 1, TopQuotes(db.quotes)[k])
  {
    var top := TopQuotes(db.quotes);
    seq(|top|, k requires 0 <= k < |top| => RankedQuote(k + 1, top[k]))
  }

  // ---------------------------------------------------------------------------
  // Totals and rank
  // ---------------------------------------------------------------------------

  /** `COUNT(*)` of the user's quotes. */
  function QuotesCreated(quotes: seq<Quote>, user: UserId): (r: nat)
    ensures r <= |quotes|
    ensures r == 0 <==> forall i :: 0 <= i < |quotes| ==> quotes[i].owner != user
  {
    if |quotes| == 0 then 0
    else (if quotes[0].owner == user then 1 else 0) + QuotesCreated(quotes[1..], user)
  }

  /** `COALESCE(SUM(vote_count), 0)` over the user's quotes. */
  function VotesReceived(quotes: seq<Quote>, user: UserId): (r: int)
    ensures (forall i :: 0 <= i < |quotes| && quotes[i].owner == user ==> quotes[i].voteCount == 0) ==> r == 0
  {
    if |quotes| == 0 then 0
    else (if quotes[0].owner == user then quotes[0].voteCount else 0) + VotesReceived(quotes[1..], user)
  }

  /** The users that own at least one quote. */
  function Owners(quotes: seq<Quote>): set<UserId>
  {
    set i | 0 <= i < |quotes| :: quotes[i].owner
  }

  /** The owners strictly ahead of `user` by votes received. */
  function Ahead(quotes: seq<Quote>, user: UserId): set<UserId>
  {
    set o | o in Owners(quotes) && VotesReceived(quotes, o) > VotesReceived(quotes, user)
  }

  /** The users that take part in the ranking: those with more than zero votes received. */
  function Ranked(quotes: seq<Quote>): set<UserId>
  {
    set o | o in Owners(quotes) && VotesReceived(quotes, o) > 0
  }

  /**
   * The user's position when users are numbered by votes received, highest
   * first, counting only users with more than zero votes. Users level with
   * `user` are placed after it.
   */
  function Rank(quotes: seq<Quote>, user: UserId): (r: Option<nat>)
    ensures r.None? <==> VotesReceived(quotes, user) <= 0
    ensures r.Some? ==> r.value >= 1
  {
    if VotesReceived(quotes, user) > 0 then Some(1 + |Ahead(quotes, user)|) else None
  }

  // ---------------------------------------------------------------------------
  // Category distribution
  // ---------------------------------------------------------------------------

  /** The count of group `c`, or 0 when there is no such group. */
  function CountIn(dist: seq<CategoryCount>, c: string): nat
  {
    if |dist| == 0 then 0
    else if dist[0].category == c then dist[0].count
    else CountIn(dist[1..], c)
  }

  /** Adds one quote of category `c`: bumps its group, or opens a new one at the end. */
  function AddOne(dist: seq<CategoryCount>, c: string): (r: seq<CategoryCount>)
    ensures 1 <= |r| <= |dist| + 1
  {
    if |dist| == 0 then [CategoryCount(c, 1)]
    else if dist[0].category == c then [dist[0].(count := dist[0].count + 1)] + dist[1..]
    else [dist[0]] + AddOne(dist[1..], c)
  }

  /** `GROUP BY LOWER(category)` over the user's quotes that have a category. */
  function Distribution(quotes: seq<Quote>, user: UserId): (r: seq<CategoryCount>)
    ensures |r| <= CategorizedCount(quotes, user)
    ensures |r| == 0 <==> CategorizedCount(quotes, user) == 0
  {
    if |quotes| == 0 then []
    else
      var rest := Distribution(quotes[1..], user);
      var q := quotes[0];
      if q.owner == user && q.category.Some? then AddOne(rest, Lower(q.category.value)) else rest
  }

  /** The user's quotes whose category lower-cases to `c`. */
  function CategoryTally(quotes: seq<Quote>, user: UserId, c: string): nat
  {
    if |quotes| == 0 then 0
    else
      var q := quotes[0];
      (if q.owner == user && q.category.Some? && Lower(q.category.value) == c then 1 else 0)
        + CategoryTally(quotes[1..], user, c)
  }

  /** The user's quotes that have a category at all. */
  function CategorizedCount(quotes: seq<Quote>, user: UserId): nat
  {
    if |quotes| == 0 then 0
    else (if quotes[0].owner == user && quotes[0].category.Some? then 1 else 0) + CategorizedCount(quotes[1..], user)
  }

  /** The sum of the group counts: the `reduce` the percentages divide by. */
  function SumCounts(dist: seq<CategoryCount>): nat
  {
    if |dist| == 0 then 0 else dist[0].count + SumCounts(dist[1..])
  }

  /** A user without quotes has no votes received and no categories. */
  lemma {:induction false} NoQuotesNothingElse(quotes: seq<Quote>, user: UserId)
    requires QuotesCreated(quotes, user) == 0
    ensures VotesReceived(quotes, user) == 0 && Distribution(quotes, user) == []
  {
    if |quotes| > 0 {
      NoQuotesNothingElse(quotes[1..], user);
    }
  }
}

=== FILE: quote_service.dfy ===
/**
 * The write side of the quote component: creating a quote (tag cleaning,
 * duplicate detection, initial values) and the owner and zero-vote guards on
 * update and delete.
 */
module QuoteService {
  import opened Wrappers
  import opened Text
  import opened Store
  import opened QuoteDto

  const MaxTags := 10

  /** Why a mutation of an existing quote is refused. */
  datatype ForbiddenReason = NotOwner | HasVotes

  /** The exceptions the quote service throws. */
  datatype QuoteError =
    | NotFound
    | Forbidden(reason: ForbiddenReason)
      /** The user already owns a quote with the same normalised content. */
    | Conflict
      /**
       * The database refuses the write: a NULL in a `NOT NULL` column, or a
       * string too long for its `VARCHAR` column. The call throws.
       */
    | Rejected

  // ---------------------------------------------------------------------------
  // Tags and category
  // ---------------------------------------------------------------------------

  /** A tag as stored: non-empty, trimmed and lower-case. */
  predicate IsCleanTag(t: string)
  {
    |t| > 0 && Trimmed(t, IsJsSpace) && NoUpper(t)
  }

  /** A blank tag is all white space: trimming leaves nothing of it. */
  predicate IsBlank(t: string)
  {
    AllSpace(t, IsJsSpace)
  }

  /** A tag trimmed and lower-cased. */
  function CleanTag(t: string): (r: string)
    ensures !IsBlank(t) ==> IsCleanTag(r)
  {
    var s := JsTrim(t);
    TrimEmptyIffAllSpace(t, IsJsSpace);
    LowerKeepsTrimmed(s);
    Lower(s)
  }

  /** A cleaned tag is the lower-cased middle of the tag between two runs of white space. */
  lemma CleanTagIsLoweredMiddle(t: string)
    ensures exists i, c :: Surrounds(t, i, c, IsJsSpace) && Trimmed(c, IsJsSpace) && CleanTag(t) == Lower(c)
  {
    var c := JsTrim(t);
    var i :| Surrounds(t, i, c, IsJsSpace);
    assert Trimmed(c, IsJsSpace) && CleanTag(t) == Lower(c);
  }

  /** Every non-blank tag, trimmed and lower-cased, in the original order. */
  function CleanAll(tags: seq<string>): (r: seq<string>)
    ensures |r| <= |tags|
  {
    if |tags| == 0 then []
    else if IsBlank(tags[0]) then CleanAll(tags[1..])
    else [CleanTag(tags[0])] + CleanAll(tags[1..])
  }

  /** Every tag of `ts` is clean. */
  predicate AllClean(ts: seq<string>)
  {
    forall k :: 0 <= k < |ts| ==> IsCleanTag(ts[k])
  }

  /** Putting a clean tag in front of clean tags gives clean tags. */
  lemma ConsAllClean(c: string, rest: seq<string>)
    requires IsCleanTag(c) && AllClean(rest)
    ensures AllClean([c] + rest)
  {
    var r := [c] + rest;
    forall k | 0 <= k < |r| ensures IsCleanTag(r[k]) {
      if k > 0 {
        assert r[k] == rest[k - 1];
      }
    }
  }

  /** Every tag cleaning keeps is non-empty, trimmed and lower-case. */
  lemma {:induction false} CleanAllClean(tags: seq<string>)
    ensures AllClean(CleanAll(tags))
  {
    if |tags| > 0 {
      CleanAllClean(tags[1..]);
      if !IsBlank(tags[0]) {
        ConsAllClean(CleanTag(tags[0]), CleanAll(tags[1..]));
      }
    }
  }

  /** Cleaning leaves nothing exactly when every tag is blank. */
  lemma {:induction false} CleanAllEmpty(tags: seq<string>)
    ensures |CleanAll(tags)| == 0 <==> forall k :: 0 <= k < |tags| ==> IsBlank(tags[k])
  {
    if |tags| > 0 {
      CleanAllEmpty(tags[1..]);
      assert forall k :: 1 <= k < |tags| ==> tags[k] == tags[1..][k - 1];
    }
  }

  /**
   * The tags stored by create: the first ten cleaned tags, or nothing when
   * the request has no tags or every tag is blank.
   */
  function CleanTags(tags: Option<seq<string>>): (r: Option<seq<string>>)
    ensures r.None? <==> tags.None? || forall k :: 0 <= k < |tags.value| ==> IsBlank(tags.value[k])
    ensures r.Some? ==> 1 <= |r.value| <= MaxTags
    ensures r.Some? ==> |r.value| == if |CleanAll(tags.value)| < MaxTags then |CleanAll(tags.value)| else MaxTags
    ensures r.Some? ==> r.value == CleanAll(tags.value)[..|r.value|]
    ensures r.Some? ==> AllClean(r.value)
  {
    match tags
    case None => None
    case Some(ts) =>
      var cleaned := CleanAll(ts);
      CleanAllEmpty(ts);
      CleanAllClean(ts);
      var n := if |cleaned| < MaxTags then |cleaned| else MaxTags;
      PrefixAllClean(cleaned, n);
      if n > 0 then Some(cleaned[..n]) else None
  }

  /** A prefix of clean tags is clean. */
  lemma PrefixAllClean(ts: seq<string>, n: nat)
    requires AllClean(ts) && n <= |ts|
    ensures AllClean(ts[..n])
  {
    forall k | 0 <= k < n ensures IsCleanTag(ts[..n][k]) {
      assert ts[..n][k] == ts[k];
    }
  }

  /** The category as stored: lower-cased, with an empty or missing one stored as NULL. */
  function StoredCategory(category: Option<string>): (r: Option<string>)
    ensures r.None? <==> category.None? || category.value == ""
    ensures r.Some? ==> r.value == Lower(category.value) && |r.value| > 0
  {
    match category
    case None => None
    case Some(c) => if c == "" then None else Some(Lower(c))
  }

  // ---------------------------------------------------------------------------
  // Create
  // ---------------------------------------------------------------------------

  /**
   * The duplicate check: the user already owns a quote whose content, after
   * SQL `TRIM` and `LOWER`, equals the new content after JavaScript `trim`
   * and lower-casing.
   */
  predicate IsDuplicate(quotes: seq<Quote>, user: UserId, content: string)
  {
    exists i :: 0 <= i < |quotes| && quotes[i].owner == user &&
      Lower(SqlTrim(quotes[i].content)) == Lower(JsTrim(content))
  }

  /** The insert fits the columns: the trimmed author and the stored category fit their `VARCHAR` widths. */
  predicate CreateFits(dto: CreateQuoteDto)
  {
    Varchar(JsTrim(dto.author), AuthorWidth).Some? && FitsNullable(StoredCategory(dto.category), CategoryWidth)
  }

  /**
   * `createQuote`: a duplicate is refused with Conflict; otherwise the row
   * takes the next serial id, zero votes and `now` as both timestamps, unless
   * a column refuses its value and the insert throws.
   */
  function CreateQuote(db: Db, dto: CreateQuoteDto, user: UserId, now: int): (r: Step<Quote, QuoteError>)
    ensures r.reply == Failure(Conflict) <==> IsDuplicate(db.quotes, user, dto.content)
    ensures r.reply == Failure(Rejected) <==> !IsDuplicate(db.quotes, user, dto.content) && !CreateFits(dto)
    ensures r.reply.Failure? ==> r.state == db
    ensures r.reply.Success? ==>
      var q := r.reply.value;
      && r.state == Db(db.quotes + [q], db.votes, db.nextId + 1)
      && q.id == db.nextId && q.owner == user && q.voteCount == 0
      && q.content == JsTrim(dto.content)
      && Some(q.author) == Varchar(JsTrim(dto.author), AuthorWidth)
      && q.category == StoredNullable(StoredCategory(dto.category), CategoryWidth)
      && q.tags == CleanTags(dto.tags)
      && q.createdAt == now && q.updatedAt == now
  {
    if IsDuplicate(db.quotes, user, dto.content) then Step(db, Failure(Conflict))
    else if !CreateFits(dto) then Step(db, Failure(Rejected))
    else
      var q := Quote(db.nextId, user, JsTrim(dto.content), Varchar(JsTrim(dto.author), AuthorWidth).value,
                     StoredNullable(StoredCategory(dto.category), CategoryWidth), CleanTags(dto.tags), 0, now, now);
      Step(Db(db.quotes + [q], db.votes, db.nextId + 1), Success(q))
  }

  // ---------------------------------------------------------------------------
  // Update and delete
  // ---------------------------------------------------------------------------

  /** The owner of the quote with id `id`, when it exists. */
  function OwnerOf(quotes: seq<Quote>, id: QuoteId): Option<UserId>
  {
    match FindQuote(quotes, id)
    case None => None
    case Some(i) => Some(quotes[i].owner)
  }

  /** The counter of the quote with id `id`, when it exists. */
  function VoteCountOf(quotes: seq<Quote>, id: QuoteId): Option<int>
  {
    match FindQuote(quotes, id)
    case None => None
    case Some(i) => Some(quotes[i].voteCount)
  }

  /**
   * The guards shared by update and delete, checked in order: the quote
   * exists, the caller owns it, nobody has voted for it. On success, the
   * position of the row.
   */
  function MutationGuard(quotes: seq<Quote>, id: QuoteId, user: UserId): (r: Result<nat, QuoteError>)
    ensures r == Failure(NotFound) <==> OwnerOf(quotes, id).None?
    ensures r == Failure(Forbidden(NotOwner)) <==> OwnerOf(quotes, id).Some? && OwnerOf(quotes, id).value != user
    ensures r == Failure(Forbidden(HasVotes)) <==>
      OwnerOf(quotes, id) == Some(user) && VoteCountOf(quotes, id) != Some(0)
    ensures r.Success? ==>
      && r.value < |quotes| && quotes[r.value].id == id
      && quotes[r.value].owner == user && quotes[r.value].voteCount == 0
  {
    match FindQuote(quotes, id)
    case None => Failure(NotFound)
    case Some(i) =>
      if quotes[i].owner != user then Failure(Forbidden(NotOwner))
      else if quotes[i].voteCount != 0 then Failure(Forbidden(HasVotes))
      else Success(i)
  }

  /** A JavaScript string is truthy when it is present and non-empty. */
  predicate Truthy(given: Option<string>)
  {
    given.Some? && given.value != ""
  }

  /** `given || stored`. */
  function OrElse(given: Option<string>, stored: string): (r: string)
    ensures Truthy(given) ==> r == given.value
    ensures !Truthy(given) ==> r == stored
  {
    if Truthy(given) then given.value else stored
  }

  /** The row `r` holds the quote at position `i` of `db` after a rewrite of `q`'s text fields only. */
  predicate RowRewritten(db: Db, i: nat, r: Step<Quote, QuoteError>, now: int)
    requires i < |db.quotes| && r.reply.Success?
  {
    var q := r.reply.value;
    && r.state.votes == db.votes && r.state.nextId == db.nextId
    && |r.state.quotes| == |db.quotes| && r.state.quotes[i] == q
    && (forall j :: 0 <= j < |db.quotes| && j != i ==> r.state.quotes[j] == db.quotes[j])
    && q.id == db.quotes[i].id && q.owner == db.quotes[i].owner && q.voteCount == db.quotes[i].voteCount
    && q.createdAt == db.quotes[i].createdAt && q.updatedAt == now
  }

  /**
   * The values `updateQuote` writes, as the code stands: the fallbacks
   * `quote[0].content`, `.author`, `.category` and `.tags` name columns the
   * guard's `SELECT id, user_id, vote_count` never fetched, so an omitted or
   * empty field is written as NULL. NULL content or author violates
   * `NOT NULL`; the author and a given category must fit their `VARCHAR`.
   */
  predicate UpdateWritable(dto: UpdateQuoteDto)
  {
    && Truthy(dto.content) && Truthy(dto.author)
    && Varchar(dto.author.value, AuthorWidth).Some?
    && (Truthy(dto.category) ==> Varchar(dto.category.value, CategoryWidth).Some?)
  }

  /**
   * `updateQuote` as written: after the guards, content and author must both
   * be given; they and a given category are written verbatim (not trimmed,
   * not lower-cased), an omitted category or tag list becomes NULL; id, owner,
   * counter and creation time stay; no other row and no vote changes.
   */
  function UpdateQuote(db: Db, id: QuoteId, dto: UpdateQuoteDto, user: UserId, now: int): (r: Step<Quote, QuoteError>)
    ensures r.reply.Failure? ==> r.state == db
    ensures MutationGuard(db.quotes, id, user).Failure? ==> r.reply == Failure(MutationGuard(db.quotes, id, user).error)
    ensures r.reply == Failure(Rejected) <==> MutationGuard(db.quotes, id, user).Success? && !UpdateWritable(dto)
    ensures r.reply.Success? <==> MutationGuard(db.quotes, id, user).Success? && UpdateWritable(dto)
    ensures r.reply.Success? ==>
      var i := MutationGuard(db.quotes, id, user).value;
      var q := r.reply.value;
      && RowRewritten(db, i, r, now)
      && q.id == id && q.owner == user && q.voteCount == 0
      && q.content == dto.content.value
      && Some(q.author) == Varchar(dto.author.value, AuthorWidth)
      && (Truthy(dto.category) ==> q.category == Varchar(dto.category.value, CategoryWidth))
      && (!Truthy(dto.category) ==> q.category.None?)
      && q.tags == dto.tags
  {
    match MutationGuard(db.quotes, id, user)
    case Failure(e) => Step(db, Failure(e))
    case Success(i) =>
      if !UpdateWritable(dto) then Step(db, Failure(Rejected))
      else
        var category := if Truthy(dto.category) then dto.category else None;
        var q := db.quotes[i].(content := dto.content.value, author := Varchar(dto.author.value, AuthorWidth).value,
                               category := StoredNullable(category, CategoryWidth), tags := dto.tags, updatedAt := now);
        Step(db.(quotes := db.quotes[i := q]), Success(q))
  }

  /** The values the corrected update writes: each omitted or empty field falls back to the stored one. */
  function Merged(q: Quote, dto: UpdateQuoteDto): Quote
  {
    var category := if Truthy(dto.category) then dto.category else q.category;
    var tags := if dto.tags.Some? then dto.tags else q.tags;
    q.(content := OrElse(dto.content, q.content), author := OrElse(dto.author, q.author),
       category := category, tags := tags)
  }

  /** The merged row fits the `VARCHAR` columns. */
  predicate MergedFits(q: Quote, dto: UpdateQuoteDto)
  {
    Varchar(Merged(q, dto).author, AuthorWidth).Some? && FitsNullable(Merged(q, dto).category, CategoryWidth)
  }

  /**
   * `updateQuote` with the fallback it evidently intends: the guard fetches
   * the whole row, and every field the request omits keeps its stored value.
   */
  function UpdateQuoteFixed(db: Db, id: QuoteId, dto: UpdateQuoteDto, user: UserId, now: int): (r: Step<Quote, QuoteError>)
    ensures r.reply.Failure? ==> r.state == db
    ensures MutationGuard(db.quotes, id, user).Failure? ==> r.reply == Failure(MutationGuard(db.quotes, id, user).error)
    ensures r.reply.Success? <==>
      MutationGuard(db.quotes, id, user).Success? && MergedFits(db.quotes[MutationGuard(db.quotes, id, user).value], dto)
    ensures r.reply.Success? ==>
      var i := MutationGuard(db.quotes, id, user).value;
      var stored := db.quotes[i];
      var q := r.reply.value;
      && RowRewritten(db, i, r, now)
      && q.id == id && q.owner == user && q.voteCount == 0
      && q.content == (if Truthy(dto.content) then dto.content.value else stored.content)
      && Some(q.author) == Varchar(if Truthy(dto.author) then dto.author.value else stored.author, AuthorWidth)
      && (Truthy(dto.category) ==> q.category == Varchar(dto.category.value, CategoryWidth))
      && (!Truthy(dto.category) ==> q.category == StoredNullable(stored.category, CategoryWidth))
      && q.tags == (if dto.tags.Some? then dto.tags else stored.tags)
  {
    match MutationGuard(db.quotes, id, user)
    case Failure(e) => Step(db, Failure(e))
    case Success(i) =>
      var m := Merged(db.quotes[i], dto);
      if !MergedFits(db.quotes[i], dto) then Step(db, Failure(Rejected))
      else
        var q := m.(author := Varchar(m.author, AuthorWidth).value,
                     category := StoredNullable(m.category, CategoryWidth), updatedAt := now);
        Step(db.(quotes := db.quotes[i := q]), Success(q))
  }

  /** The vote rows left after `ON DELETE CASCADE` removes those referencing `id`. */
  function CascadeVotes(votes: seq<Vote>, id: QuoteId): (r: seq<Vote>)
    ensures forall v :: v in r <==> v in votes && v.quote != id
    ensures |r| == |votes| - CountFor(votes, id)
    ensures CountFor(votes, id) == 0 ==> r == votes
  {
    if |votes| == 0 then []
    else if votes[0].quote == id then CascadeVotes(votes[1..], id)
    else [votes[0]] + CascadeVotes(votes[1..], id)
  }

  /**
   * `deleteQuote`: after the guards, exactly that row leaves the table, the
   * others keep their order, and vote rows referencing it cascade away.
   */
  function DeleteQuote(db: Db, id: QuoteId, user: UserId): (r: Step<(), QuoteError>)
    ensures r.reply.Failure? ==> r.state == db && Failure(r.reply.error) == MutationGuard(db.quotes, id, user)
    ensures r.reply.Success? <==> MutationGuard(db.quotes, id, user).Success?
    ensures r.reply.Success? ==>
      var i := MutationGuard(db.quotes, id, user).value;
      && r.state.quotes == RemoveAt(db.quotes, i)
      && r.state.votes == CascadeVotes(db.votes, id)
      && r.state.nextId == db.nextId
  {
    match MutationGuard(db.quotes, id, user)
    case Failure(e) => Step(db, Failure(e))
    case Success(i) => Step(Db(RemoveAt(db.quotes, i), CascadeVotes(db.votes, id), db.nextId), Success(()))
  }
}

=== FILE: quote_summary.dfy ===
/**
 * The personal summary and its properties: the category groups count exactly the
 * user's quotes of each lower-cased category and add up to the categorized
 * total, and the rank is absent exactly for users nobody has voted for and
 * otherwise orders users by votes received.
 */
module QuoteSummary {
  import opened Wrappers
  import opened Text
  import opened Store
  import opened QuoteReports

  // ---------------------------------------------------------------------------
  // Category distribution
  // ---------------------------------------------------------------------------

  /** Adding a quote of category `c` bumps the count of `c` by one and no other count. */
  lemma {:induction false} CountInAddOne(dist: seq<CategoryCount>, c: string, x: string)
    ensures CountIn(AddOne(dist, c), x) == CountIn(dist, x) + (if x == c then 1 else 0)
  {
    if |dist| > 0 && dist[0].category != c {
      CountInAddOne(dist[1..], c, x);
      assert AddOne(dist, c)[1..] == AddOne(dist[1..], c);
    }
  }

  /** Each group of the distribution counts exactly the user's quotes of that category. */
  lemma {:induction false} DistributionCounts(quotes: seq<Quote>, user: UserId, c: string)
    ensures CountIn(Distribution(quotes, user), c) == CategoryTally(quotes, user, c)
  {
    if |quotes| > 0 {
      DistributionCounts(quotes[1..], user, c);
      var q := quotes[0];
      if q.owner == user && q.category.Some? {
        CountInAddOne(Distribution(quotes[1..], user), Lower(q.category.value), c);
      }
    }
  }

  /** No category names two groups, and every group counts at least one quote. */
  predicate GroupsDistinct(dist: seq<CategoryCount>)
  {
    && (forall i, j :: 0 <= i < j < |dist| ==> dist[i].category != dist[j].category)
    && (forall i :: 0 <= i < |dist| ==> dist[i].count >= 1)
  }

  /** `AddOne` keeps the groups distinct and adds `c` to the set of categories. */
  lemma {:induction false} AddOneDistinct(dist: seq<CategoryCount>, c: string)
    requires GroupsDistinct(dist)
    ensures GroupsDistinct(AddOne(dist, c))
    ensures forall i :: 0 <= i < |AddOne(dist, c)| ==>
      AddOne(dist, c)[i].category == c || exists j :: 0 <= j < |dist| && dist[j].category == AddOne(dist, c)[i].category
  {
    if |dist| > 0 && dist[0].category != c {
      var rest := AddOne(dist[1..], c);
      AddOneDistinct(dist[1..], c);
      var r := AddOne(dist, c);
      assert r == [dist[0]] + rest;
      forall i | 1 <= i < |r| ensures r[i].category != dist[0].category {
        assert r[i] == rest[i - 1];
        if rest[i - 1].category != c {
          var j :| 0 <= j < |dist[1..]| && dist[1..][j].category == rest[i - 1].category;
          assert dist[j + 1].category == rest[i - 1].category;
        }
      }
      forall i | 1 <= i < |r| && r[i].category != c
        ensures exists j :: 0 <= j < |dist| && dist[j].category == r[i].category
      {
        var j :| 0 <= j < |dist[1..]| && dist[1..][j].category == rest[i - 1].category;
        assert dist[j + 1].category == r[i].category;
      }
    } else if |dist| > 0 {
      var r := AddOne(dist, c);
      assert forall i :: 1 <= i < |r| ==> r[i] == dist[i];
    }
  }

  /** The distribution has one group per category, each counting at least one quote. */
  lemma {:induction false} DistributionDistinct(quotes: seq<Quote>, user: UserId)
    ensures GroupsDistinct(Distribution(quotes, user))
  {
    if |quotes| > 0 {
      DistributionDistinct(quotes[1..], user);
      var q := quotes[0];
      if q.owner == user && q.category.Some? {
        AddOneDistinct(Distribution(quotes[1..], user), Lower(q.category.value));
      }
    }
  }

  /** Adding one quote raises the total of the groups by one. */
  lemma {:induction false} SumAddOne(dist: seq<CategoryCount>, c: string)
    ensures SumCounts(AddOne(dist, c)) == SumCounts(dist) + 1
  {
    if |dist| > 0 && dist[0].category != c {
      SumAddOne(dist[1..], c);
      assert AddOne(dist, c)[1..] == AddOne(dist[1..], c);
    } else if |dist| > 0 {
      assert AddOne(dist, c)[1..] == dist[1..];
    }
  }

  /**
   * The total the percentages divide by is the number of the user's quotes
   * that have a category, so the percentages describe every such quote.
   */
  lemma {:induction false} SumIsCategorized(quotes: seq<Quote>, user: UserId)
    ensures SumCounts(Distribution(quotes, user)) == CategorizedCount(quotes, user)
  {
    if |quotes| > 0 {
      SumIsCategorized(quotes[1..], user);
      var q := quotes[0];
      if q.owner == user && q.category.Some? {
        SumAddOne(Distribution(quotes[1..], user), Lower(q.category.value));
      }
    }
  }

  // ---------------------------------------------------------------------------
  // The summary
  // ---------------------------------------------------------------------------

  /** `getPersonalSummary`. */
  function PersonalSummary(db: Db, user: UserId): (r: Summary)
    ensures r.totalQuotesCreated == QuotesCreated(db.quotes, user)
      && r.totalVotesReceived == VotesReceived(db.quotes, user)
      && r.ranking == Rank(db.quotes, user)
    ensures forall c :: CountIn(r.categoryDistribution, c) == CategoryTally(db.quotes, user, c)
    ensures SumCounts(r.categoryDistribution) == CategorizedCount(db.quotes, user)
    ensures r.ranking.None? <==> r.totalVotesReceived <= 0
    ensures r.totalQuotesCreated == 0 ==> r.totalVotesReceived == 0 && r.categoryDistribution == []
  {
    var dist := Distribution(db.quotes, user);
    assert QuotesCreated(db.quotes, user) == 0 ==> VotesReceived(db.quotes, user) == 0 && dist == [] by {
      if QuotesCreated(db.quotes, user) == 0 { NoQuotesNothingElse(db.quotes, user); }
    }
    assert forall c :: CountIn(dist, c) == CategoryTally(db.quotes, user, c) by {
      forall c ensures CountIn(dist, c) == CategoryTally(db.quotes, user, c) {
        DistributionCounts(db.quotes, user, c);
      }
    }
    SumIsCategorized(db.quotes, user);
    Summary(QuotesCreated(db.quotes, user), VotesReceived(db.quotes, user), Rank(db.quotes, user), dist)
  }

  // ---------------------------------------------------------------------------
  // Votes received and rank
  // ---------------------------------------------------------------------------

  /** The user owns a quote whose counter is above zero. */
  predicate OwnsVotedQuote(quotes: seq<Quote>, user: UserId)
  {
    exists i :: 0 <= i < |quotes| && quotes[i].owner == user && quotes[i].voteCount > 0
  }

  /** With no negative counter, a user has received votes iff one of their quotes has. */
  lemma {:induction false} ReceivedIffVotedQuote(quotes: seq<Quote>, user: UserId)
    requires forall i :: 0 <= i < |quotes| ==> quotes[i].voteCount >= 0
    ensures VotesReceived(quotes, user) >= 0
    ensures VotesReceived(quotes, user) > 0 <==> OwnsVotedQuote(quotes, user)
  {
    if |quotes| > 0 {
      ReceivedIffVotedQuote(quotes[1..], user);
      if OwnsVotedQuote(quotes[1..], user) {
        var i :| 0 <= i < |quotes[1..]| && quotes[1..][i].owner == user && quotes[1..][i].voteCount > 0;
        assert quotes[i + 1] == quotes[1..][i];
      }
      if OwnsVotedQuote(quotes, user) && !(quotes[0].owner == user && quotes[0].voteCount > 0) {
        var i :| 0 <= i < |quotes| && quotes[i].owner == user && quotes[i].voteCount > 0;
        assert quotes[1..][i - 1] == quotes[i];
      }
    }
  }

  /**
   * On a consistent ledger the summary has no rank exactly when no vote row
   * references any of the user's quotes.
   */
  lemma RankAbsentIffNoVoteRows(db: Db, user: UserId)
    requires Consistent(db)
    ensures PersonalSummary(db, user).ranking.None? <==>
      forall i, k :: 0 <= i < |db.quotes| && 0 <= k < |db.votes| && db.quotes[i].owner == user ==>
        db.votes[k].quote != db.quotes[i].id
  {
    ReceivedIffVotedQuote(db.quotes, user);
  }

  /** A user with a non-zero total owns some quote. */
  lemma {:induction false} ReceivedMeansOwner(quotes: seq<Quote>, user: UserId)
    requires VotesReceived(quotes, user) != 0
    ensures user in Owners(quotes)
  {
    if quotes[0].owner != user {
      ReceivedMeansOwner(quotes[1..], user);
      var i :| 0 <= i < |quotes[1..]| && quotes[1..][i].owner == user;
      assert quotes[i + 1].owner == user;
    }
  }

  /** The users ahead of a ranked user are other ranked users. */
  lemma AheadWithinRanked(quotes: seq<Quote>, user: UserId)
    requires VotesReceived(quotes, user) > 0
    ensures user in Ranked(quotes)
    ensures Ahead(quotes, user) <= Ranked(quotes) - {user}
  {
    ReceivedMeansOwner(quotes, user);
  }

  /** A rank is a position among the ranked users: between 1 and their number. */
  lemma RankWithinRanked(quotes: seq<Quote>, user: UserId)
    requires Rank(quotes, user).Some?
    ensures 1 <= Rank(quotes, user).value <= |Ranked(quotes)|
  {
    AheadWithinRanked(quotes, user);
    var others := Ranked(quotes) - {user};
    assert |Ranked(quotes)| == |others| + 1;
    SubsetCard(Ahead(quotes, user), others);
  }

  /** A user with strictly more votes received is ranked strictly better. */
  lemma RankStrictlyOrders(quotes: seq<Quote>, a: UserId, b: UserId)
    requires VotesReceived(quotes, a) > VotesReceived(quotes, b) > 0
    ensures Rank(quotes, a).Some? && Rank(quotes, b).Some?
    ensures Rank(quotes, a).value < Rank(quotes, b).value
  {
    ReceivedMeansOwner(quotes, a);
    var aheadA, aheadB := Ahead(quotes, a), Ahead(quotes, b);
    assert a in aheadB && a !in aheadA;
    assert aheadA <= aheadB - {a};
    SubsetCard(aheadA, aheadB - {a});
  }

  /** A subset is no larger than its superset. */
  lemma {:induction false} SubsetCard<T>(a: set<T>, b: set<T>)
    requires a <= b
    ensures |a| <= |b|
  {
    if a != {} {
      var x :| x in a;
      SubsetCard(a - {x}, b - {x});
    }
  }

  // ---------------------------------------------------------------------------
  // Append laws: every total is a sum over the rows
  // ---------------------------------------------------------------------------

  /** The quote count of a table is the sum of the counts of its two parts. */
  lemma {:induction false} QuotesCreatedAppend(a: seq<Quote>, b: seq<Quote>, user: UserId)
    ensures QuotesCreated(a + b, user) == QuotesCreated(a, user) + QuotesCreated(b, user)
  {
    if |a| == 0 {
      assert a + b == b;
    } else {
      assert (a + b)[1..] == a[1..] + b;
      QuotesCreatedAppend(a[1..], b, user);
    }
  }

  /** The votes received over a table are the sum over its two parts. */
  lemma {:induction false} VotesReceivedAppend(a: seq<Quote>, b: seq<Quote>, user: UserId)
    ensures VotesReceived(a + b, user) == VotesReceived(a, user) + VotesReceived(b, user)
  {
    if |a| == 0 {
      assert a + b == b;
    } else {
      assert (a + b)[1..] == a[1..] + b;
      VotesReceivedAppend(a[1..], b, user);
    }
  }

  /** The tally of a category over a table is the sum over its two parts. */
  lemma {:induction false} CategoryTallyAppend(a: seq<Quote>, b: seq<Quote>, user: UserId, c: string)
    ensures CategoryTally(a + b, user, c) == CategoryTally(a, user, c) + CategoryTally(b, user, c)
  {
    if |a| == 0 {
      assert a + b == b;
    } else {
      assert (a + b)[1..] == a[1..] + b;
      CategoryTallyAppend(a[1..], b, user, c);
    }
  }
}

=== FILE: store.dfy ===
/**
 * The two tables the services share, modelled as sequences of rows in scan
 * order, together with the database constraints the schema declares and the
 * ledger invariant the vote service is meant to keep.
 */
module Store {
  import opened Wrappers
  import opened Text

  type UserId = int
  type QuoteId = int

  /** A row of `quotes`. Timestamps are abstract instants. */
  datatype Quote = Quote(
    id: QuoteId,
    owner: UserId,
    content: string,
    author: string,
    category: Option<string>,
    tags: Option<seq<string>>,
    voteCount: int,
    createdAt: int,
    updatedAt: int)

  /** A row of `votes`: the voter, the quote voted for and the stored `vote_value`. */
  datatype Vote = Vote(user: UserId, quote: QuoteId, value: int)

  /**
   * Both tables, plus the next value of the `SERIAL` sequence behind `quotes.id`.
   */
  datatype Db = Db(quotes: seq<Quote>, votes: seq<Vote>, nextId: int)

  /**
   * The post-state of an operation together with its reply. A failed
   * operation is rolled back, so its post-state is its pre-state.
   */
  datatype Step<+R, +E> = Step(state: Db, reply: Result<R, E>)

  /** The ids present in `quotes`. */
  function Ids(quotes: seq<Quote>): set<QuoteId>
  {
    set i | 0 <= i < |quotes| :: quotes[i].id
  }

  /** Position of the first row with id `id` (what `WHERE id = …` finds first). */
  function FindQuote(quotes: seq<Quote>, id: QuoteId): (r: Option<nat>)
    ensures r.None? <==> id !in Ids(quotes)
    ensures r.Some? ==> r.value < |quotes| && quotes[r.value].id == id
    ensures r.Some? ==> forall j :: 0 <= j < r.value ==> quotes[j].id != id
  {
    if |quotes| == 0 then None
    else if quotes[0].id == id then Some(0)
    else
      match FindQuote(quotes[1..], id)
      case None => None
      case Some(k) => Some(k + 1)
  }

  /** Position of the first vote row of `user` (`existingVote[0]` of `WHERE user_id = …`). */
  function FirstVoteOf(votes: seq<Vote>, user: UserId): (r: Option<nat>)
    ensures r.None? <==> forall k :: 0 <= k < |votes| ==> votes[k].user != user
    ensures r.Some? ==> r.value < |votes| && votes[r.value].user == user
    ensures r.Some? ==> forall k :: 0 <= k < r.value ==> votes[k].user != user
  {
    if |votes| == 0 then None
    else if votes[0].user == user then Some(0)
    else
      match FirstVoteOf(votes[1..], user)
      case None => None
      case Some(k) => Some(k + 1)
  }

  /** Position of the first row for the pair (`user`, `quote`). */
  function FindVote(votes: seq<Vote>, user: UserId, quote: QuoteId): (r: Option<nat>)
    ensures r.None? <==> !HasVote(votes, user, quote)
    ensures r.Some? ==> r.value < |votes| && votes[r.value].user == user && votes[r.value].quote == quote
    ensures r.Some? ==> forall k :: 0 <= k < r.value ==> !(votes[k].user == user && votes[k].quote == quote)
  {
    if |votes| == 0 then None
    else if votes[0].user == user && votes[0].quote == quote then Some(0)
    else
      match FindVote(votes[1..], user, quote)
      case None => None
      case Some(k) => Some(k + 1)
  }

  /** Some row records a vote of `user` for `quote`. */
  predicate HasVote(votes: seq<Vote>, user: UserId, quote: QuoteId)
  {
    exists k :: 0 <= k < |votes| && votes[k].user == user && votes[k].quote == quote
  }

  /** `user` has at least one vote row, for any quote. */
  predicate HasAnyVote(votes: seq<Vote>, user: UserId)
  {
    exists k :: 0 <= k < |votes| && votes[k].user == user
  }

  /** The number of vote rows that reference `quote`. */
  function CountFor(votes: seq<Vote>, quote: QuoteId): (r: nat)
    ensures r <= |votes|
    ensures r == 0 <==> forall k :: 0 <= k < |votes| ==> votes[k].quote != quote
  {
    if |votes| == 0 then 0
    else (if votes[0].quote == quote then 1 else 0) + CountFor(votes[1..], quote)
  }

  /** The table without the row at position `i` (`DELETE … WHERE id = <that row>`). */
  function RemoveAt<T>(rows: seq<T>, i: nat): (r: seq<T>)
    requires i < |rows|
    ensures |r| == |rows| - 1
    ensures forall k :: 0 <= k < i ==> r[k] == rows[k]
    ensures forall k :: i <= k < |r| ==> r[k] == rows[k + 1]
  {
    rows[..i] + rows[i + 1..]
  }

  /** Where row `m` of the table after `RemoveAt(rows, k)` came from. */
  function OriginalIndex(k: nat, m: nat): nat
  {
    if m < k then m else m + 1
  }

  // ---------------------------------------------------------------------------
  // Column types
  // ---------------------------------------------------------------------------

  /** `quotes.author VARCHAR(255)`. */
  const AuthorWidth := 255

  /** `quotes.category VARCHAR(50)`. */
  const CategoryWidth := 50

  /**
   * What a `VARCHAR(n)` column stores for `s`: `s` itself when it fits; a
   * longer string whose excess is all spaces is cut to `n` characters; any
   * other longer string makes the write fail, shown as no value.
   */
  function Varchar(s: string, n: nat): (r: Option<string>)
    ensures |s| <= n ==> r == Some(s)
    ensures r.None? <==> |s| > n && !AllSpace(s[n..], IsSqlSpace)
    ensures r.Some? ==> |r.value| <= n && r.value == s[..|r.value|] && AllSpace(s[|r.value|..], IsSqlSpace)
    ensures |s| > n && r.Some? ==> r.value == s[..n]
  {
    if |s| <= n then Some(s)
    else if AllSpace(s[n..], IsSqlSpace) then Some(s[..n])
    else None
  }

  /** A nullable `VARCHAR(n)` column accepts NULL and every string `Varchar` accepts. */
  predicate FitsNullable(s: Option<string>, n: nat)
  {
    s.None? || Varchar(s.value, n).Some?
  }

  /** What a nullable `VARCHAR(n)` column stores: NULL for NULL, otherwise as `Varchar` says. */
  function StoredNullable(s: Option<string>, n: nat): (r: Option<string>)
    requires FitsNullable(s, n)
    ensures s.None? <==> r.None?
    ensures s.Some? ==> r == Varchar(s.value, n)
  {
    if s.None? then None else Varchar(s.value, n)
  }

  // ---------------------------------------------------------------------------
  // Constraints and invariants
  // ---------------------------------------------------------------------------

  /** `quotes.id` is a primary key. */
  predicate QuoteIdsUnique(db: Db)
  {
    forall i, j :: 0 <= i < j < |db.quotes| ==> db.quotes[i].id != db.quotes[j].id
  }

  /** Every id already handed out is below the `SERIAL` counter. */
  predicate IdsBelowSerial(db: Db)
  {
    forall i :: 0 <= i < |db.quotes| ==> db.quotes[i].id < db.nextId
  }

  /** `votes.quote_id` references an existing quote. */
  predicate VotesReferenceQuotes(db: Db)
  {
    forall k :: 0 <= k < |db.votes| ==> db.votes[k].quote in Ids(db.quotes)
  }

  /** `UNIQUE (user_id, quote_id)` on `votes`. */
  predicate PairsUnique(db: Db)
  {
    forall k, l :: 0 <= k < l < |db.votes| ==>
      !(db.votes[k].user == db.votes[l].user && db.votes[k].quote == db.votes[l].quote)
  }

  /** `CHECK (vote_value IN (-1, 1))` on `votes`. */
  predicate ValuesInDomain(db: Db)
  {
    forall k :: 0 <= k < |db.votes| ==> db.votes[k].value in {-1, 1}
  }

  /** The row's author and category fit their `VARCHAR` columns. */
  predicate RowFits(q: Quote)
  {
    |q.author| <= AuthorWidth && (q.category.Some? ==> |q.category.value| <= CategoryWidth)
  }

  /** Every stored author and category fits its `VARCHAR` column. */
  predicate QuotesFit(db: Db)
  {
    forall i :: 0 <= i < |db.quotes| ==> RowFits(db.quotes[i])
  }

  /** What the schema itself enforces: keys, references, `CHECK`, `UNIQUE` and the `VARCHAR` widths. */
  predicate WellFormed(db: Db)
  {
    && QuoteIdsUnique(db)
    && QuotesFit(db)
    && IdsBelowSerial(db)
    && VotesReferenceQuotes(db)
    && PairsUnique(db)
    && ValuesInDomain(db)
  }

  /** Each user has at most one vote row, across all quotes. */
  predicate OneVotePerUser(db: Db)
  {
    forall k, l :: 0 <= k < l < |db.votes| ==> db.votes[k].user != db.votes[l].user
  }

  /** Each quote's `vote_count` equals the number of vote rows referencing it. */
  predicate CountsMatch(db: Db)
  {
    forall i :: 0 <= i < |db.quotes| ==> db.quotes[i].voteCount == CountFor(db.votes, db.quotes[i].id)
  }

  /** The ledger invariant: the schema constraints plus the two application rules. */
  predicate Consistent(db: Db)
  {
    WellFormed(db) && OneVotePerUser(db) && CountsMatch(db)
  }

  // ---------------------------------------------------------------------------
  // Counting lemmas
  // ---------------------------------------------------------------------------

  /** Appending a row adds one to the count of the quote it references and to no other. */
  lemma {:induction false} CountAppend(votes: seq<Vote>, v: Vote, quote: QuoteId)
    ensures CountFor(votes + [v], quote) == CountFor(votes, quote) + (if v.quote == quote then 1 else 0)
  {
    if |votes| == 0 {
      assert votes + [v] == [v];
    } else {
      assert (votes + [v])[1..] == votes[1..] + [v];
      CountAppend(votes[1..], v, quote);
    }
  }

  /** Deleting a row subtracts one from the count of the quote it references and from no other. */
  lemma {:induction false} CountRemoveAt(votes: seq<Vote>, i: nat, quote: QuoteId)
    requires i < |votes|
    ensures CountFor(RemoveAt(votes, i), quote) == CountFor(votes, quote) - (if votes[i].quote == quote then 1 else 0)
  {
    if i == 0 {
      assert RemoveAt(votes, 0) == votes[1..];
    } else {
      assert RemoveAt(votes, i)[1..] == RemoveAt(votes[1..], i - 1);
      CountRemoveAt(votes[1..], i - 1, quote);
    }
  }

  /** Removing the row just appended gives back the original table. */
  lemma RemoveAppended<T>(rows: seq<T>, x: T)
    ensures RemoveAt(rows + [x], |rows|) == rows
  {
    assert (rows + [x])[..|rows|] == rows;
  }
}

=== FILE: text.dfy ===
/**
 * The string operations the services apply to user input: JavaScript's
 * `String.prototype.trim`, PostgreSQL's `TRIM` (spaces only) and case mapping.
 * Case mapping covers the ASCII letters, plus the two non-ASCII characters
 * whose upper case is an ASCII letter (dotless i and long s).
 */
module Text {

  /** The characters JavaScript's `trim` removes outside the range U+2000..U+200A. */
  const JsSpaceChars: set<char> :=
    {'\t', '\n', '\U{B}', '\U{C}', '\r', ' ', '\U{A0}', '\U{1680}',
     '\U{2028}', '\U{2029}', '\U{202F}', '\U{205F}', '\U{3000}', '\U{FEFF}'}

  /** The characters JavaScript's `trim` removes: WhiteSpace and LineTerminator. */
  predicate IsJsSpace(c: char)
  {
    c in JsSpaceChars || '\U{2000}' <= c <= '\U{200A}'
  }

  /** The only character PostgreSQL's one-argument `TRIM` removes. */
  predicate IsSqlSpace(c: char)
  {
    c == ' '
  }

  /** `s` neither starts nor ends with a character `isSpace` accepts. */
  predicate Trimmed(s: string, isSpace: char -> bool)
  {
    |s| > 0 ==> !isSpace(s[0]) && !isSpace(s[|s| - 1])
  }

  /** Every character of `s` is accepted by `isSpace`. */
  predicate AllSpace(s: string, isSpace: char -> bool)
  {
    forall k :: 0 <= k < |s| ==> isSpace(s[k])
  }

  /** Drops the leading characters `isSpace` accepts. */
  function TrimStart(s: string, isSpace: char -> bool): (r: string)
    ensures |r| <= |s| && r == s[|s| - |r|..]
    ensures AllSpace(s[..|s| - |r|], isSpace)
    ensures |r| > 0 ==> !isSpace(r[0])
  {
    if |s| > 0 && isSpace(s[0]) then TrimStart(s[1..], isSpace) else s
  }

  /** Drops the trailing characters `isSpace` accepts. */
  function TrimEnd(s: string, isSpace: char -> bool): (r: string)
    ensures |r| <= |s| && r == s[..|r|]
    ensures AllSpace(s[|r|..], isSpace)
    ensures |r| > 0 ==> !isSpace(r[|r| - 1])
  {
    if |s| > 0 && isSpace(s[|s| - 1]) then TrimEnd(s[..|s| - 1], isSpace) else s
  }

  /**
   * Removes the longest all-space prefix and suffix: `s` is the result
   * surrounded by two runs of space characters.
   */
  function TrimBy(s: string, isSpace: char -> bool): (r: string)
    ensures Trimmed(r, isSpace)
    ensures exists i :: Surrounds(s, i, r, isSpace)
  {
    var t := TrimStart(s, isSpace);
    var r := TrimEnd(t, isSpace);
    assert Surrounds(s, |s| - |t|, r, isSpace);
    r
  }

  /** `s` is `r` placed at offset `i`, with only space characters before and after it. */
  predicate Surrounds(s: string, i: int, r: string, isSpace: char -> bool)
  {
    && 0 <= i <= i + |r| <= |s|
    && s[i..i + |r|] == r
    && AllSpace(s[..i], isSpace)
    && AllSpace(s[i + |r|..], isSpace)
  }

  /** JavaScript `s.trim()`. */
  function JsTrim(s: string): (r: string)
    ensures Trimmed(r, IsJsSpace)
    ensures exists i :: Surrounds(s, i, r, IsJsSpace)
  {
    TrimBy(s, IsJsSpace)
  }

  /** PostgreSQL `TRIM(s)`. */
  function SqlTrim(s: string): (r: string)
    ensures Trimmed(r, IsSqlSpace)
    ensures exists i :: Surrounds(s, i, r, IsSqlSpace)
  {
    TrimBy(s, IsSqlSpace)
  }

  predicate IsUpperAscii(c: char)
  {
    'A' <= c <= 'Z'
  }

  predicate IsLowerAscii(c: char)
  {
    'a' <= c <= 'z'
  }

  function LowerChar(c: char): char
  {
    if IsUpperAscii(c) then (c as int + 32) as char else c
  }

  /** U+0131 LATIN SMALL LETTER DOTLESS I, upper-cased to `I`. */
  const DotlessI: char := '\U{131}'

  /** U+017F LATIN SMALL LETTER LONG S, upper-cased to `S`. */
  const LongS: char := '\U{17F}'

  /** A character that `UpperChar` changes. */
  predicate HasUpper(c: char)
  {
    IsLowerAscii(c) || c == DotlessI || c == LongS
  }

  function UpperChar(c: char): char
  {
    if IsLowerAscii(c) then (c as int - 32) as char
    else if c == DotlessI then 'I'
    else if c == LongS then 'S'
    else c
  }

  /**
   * `toLowerCase` / SQL `LOWER`: each upper-case letter becomes its
   * lower-case letter, 32 code points further on; nothing else is touched.
   */
  function Lower(s: string): (r: string)
    ensures |r| == |s|
    ensures forall k :: 0 <= k < |s| && IsUpperAscii(s[k]) ==> r[k] == (s[k] as int + 32) as char
    ensures forall k :: 0 <= k < |s| && !IsUpperAscii(s[k]) ==> r[k] == s[k]
    ensures forall k :: 0 <= k < |s| ==> !IsUpperAscii(r[k])
  {
    seq(|s|, k requires 0 <= k < |s| => LowerChar(s[k]))
  }

  /**
   * `toUpperCase`: each lower-case letter becomes its upper-case letter, 32
   * code points back, dotless i becomes `I` and long s becomes `S`; nothing
   * else is touched.
   */
  function Upper(s: string): (r: string)
    ensures |r| == |s|
    ensures forall k :: 0 <= k < |s| && IsLowerAscii(s[k]) ==> r[k] == (s[k] as int - 32) as char
    ensures forall k :: 0 <= k < |s| && s[k] == DotlessI ==> r[k] == 'I'
    ensures forall k :: 0 <= k < |s| && s[k] == LongS ==> r[k] == 'S'
    ensures forall k :: 0 <= k < |s| && !HasUpper(s[k]) ==> r[k] == s[k]
    ensures forall k :: 0 <= k < |s| ==> !IsLowerAscii(r[k])
  {
    seq(|s|, k requires 0 <= k < |s| => UpperChar(s[k]))
  }

  /** Trimming leaves nothing exactly when every character is a space. */
  lemma TrimEmptyIffAllSpace(s: string, isSpace: char -> bool)
    ensures |TrimBy(s, isSpace)| == 0 <==> AllSpace(s, isSpace)
  {
    var r := TrimBy(s, isSpace);
    var i :| Surrounds(s, i, r, isSpace);
    if |r| == 0 {
      assert s == s[..i] + s[i..];
    }
  }

  /** Trimming an already trimmed string changes nothing. */
  lemma {:induction false} TrimByIdempotent(s: string, isSpace: char -> bool)
    requires Trimmed(s, isSpace)
    ensures TrimBy(s, isSpace) == s
  {
    if |s| > 0 {
      assert !isSpace(s[0]);
      assert TrimStart(s, isSpace) == s;
      assert TrimEnd(s, isSpace) == s;
    }
  }

  /** `s` has no upper-case letter, so lower-casing leaves it as it is. */
  predicate NoUpper(s: string)
  {
    forall k :: 0 <= k < |s| ==> !IsUpperAscii(s[k])
  }

  /** Lower-casing a string without upper-case letters changes nothing. */
  lemma LowerOfNoUpper(s: string)
    requires NoUpper(s)
    ensures Lower(s) == s
  {
  }

  /** Every prefix of a lower-cased string is free of upper-case letters. */
  lemma LoweredPrefixNoUpper(s: string, n: nat)
    requires n <= |s|
    ensures NoUpper(Lower(s)[..n])
  {
  }

  /** Lower-casing keeps a trimmed string trimmed: no letter is a space. */
  lemma LowerKeepsTrimmed(s: string)
    requires Trimmed(s, IsJsSpace)
    ensures Trimmed(Lower(s), IsJsSpace)
  {
  }
}

=== FILE: vote_ledger.dfy ===
/**
 * Properties of the vote ledger across calls: both writes keep the ledger
 * invariant, a cast undone by a retract restores the tables exactly, and the
 * reads agree with the rows.
 */
module VoteLedger {
  import opened Wrappers
  import opened Store
  import opened VoteService

  /** Finding a quote looks at ids only, so rewriting a counter does not move it. */
  lemma FindQuoteAfterWithCount(quotes: seq<Quote>, i: nat, count: int, id: QuoteId)
    requires i < |quotes|
    ensures FindQuote(WithCount(quotes, i, count), id) == FindQuote(quotes, id)
  {
    var quotes' := WithCount(quotes, i, count);
    assert forall j :: 0 <= j < |quotes| ==> quotes'[j].id == quotes[j].id;
  }

  /** Rewriting a counter keeps every id-based constraint. */
  lemma WithCountKeepsIds(db: Db, i: nat, count: int)
    requires i < |db.quotes|
    requires QuoteIdsUnique(db) && IdsBelowSerial(db) && VotesReferenceQuotes(db)
    ensures var db' := db.(quotes := WithCount(db.quotes, i, count));
      QuoteIdsUnique(db') && IdsBelowSerial(db') && VotesReferenceQuotes(db')
  {
    var quotes' := WithCount(db.quotes, i, count);
    assert forall j :: 0 <= j < |db.quotes| ==> quotes'[j].id == db.quotes[j].id;
  }

  /** The tables a successful cast of `user` on the quote at `i` produces. */
  function CastState(db: Db, i: nat, user: UserId): Db
    requires i < |db.quotes|
  {
    Db(WithCount(db.quotes, i, db.quotes[i].voteCount + 1), db.votes + [Vote(user, db.quotes[i].id, 1)], db.nextId)
  }

  /** The tables a successful retract of the row at `k` on the quote at `i` produces. */
  function RetractState(db: Db, i: nat, k: nat): Db
    requires i < |db.quotes| && k < |db.votes|
  {
    var count := db.quotes[i].voteCount - 1;
    Db(WithCount(db.quotes, i, if count < 0 then 0 else count), RemoveAt(db.votes, k), db.nextId)
  }

  lemma CastStateWellFormed(db: Db, i: nat, user: UserId)
    requires i < |db.quotes|
    requires WellFormed(db) && OneVotePerUser(db)
    requires !HasAnyVote(db.votes, user)
    ensures WellFormed(CastState(db, i, user)) && OneVotePerUser(CastState(db, i, user))
  {
    var db' := CastState(db, i, user);
    WithCountKeepsIds(db, i, db.quotes[i].voteCount + 1);
    assert forall k :: 0 <= k < |db.votes| ==> db'.votes[k] == db.votes[k];
    assert db'.votes[|db.votes|] == Vote(user, db.quotes[i].id, 1);
    assert db.quotes[i].id in Ids(db.quotes);
  }

  lemma CastStateCounts(db: Db, i: nat, user: UserId)
    requires i < |db.quotes|
    requires QuoteIdsUnique(db) && CountsMatch(db)
    ensures CountsMatch(CastState(db, i, user))
  {
    var db' := CastState(db, i, user);
    var v := Vote(user, db.quotes[i].id, 1);
    forall j | 0 <= j < |db'.quotes|
      ensures db'.quotes[j].voteCount == CountFor(db'.votes, db'.quotes[j].id)
    {
      CountAppend(db.votes, v, db.quotes[j].id);
      assert j != i ==> db.quotes[j].id != db.quotes[i].id;
    }
  }

  /** A successful cast keeps the ledger invariant. */
  lemma CastPreservesConsistent(db: Db, i: nat, user: UserId)
    requires i < |db.quotes|
    requires Consistent(db)
    ensures Consistent(Cast(db, i, user).state)
  {
    if Cast(db, i, user).reply.Success? {
      assert Cast(db, i, user).state == CastState(db, i, user);
      CastStateWellFormed(db, i, user);
      CastStateCounts(db, i, user);
    }
  }

  /** Deleting one vote row keeps the schema constraints and the one-vote rule. */
  lemma RemoveVoteWellFormed(db: Db, k: nat)
    requires k < |db.votes|
    requires WellFormed(db) && OneVotePerUser(db)
    ensures WellFormed(db.(votes := RemoveAt(db.votes, k))) && OneVotePerUser(db.(votes := RemoveAt(db.votes, k)))
  {
    var votes' := RemoveAt(db.votes, k);
    assert forall m :: 0 <= m < |votes'| ==> votes'[m] == db.votes[OriginalIndex(k, m)];
  }

  lemma RetractStateWellFormed(db: Db, i: nat, k: nat)
    requires i < |db.quotes| && k < |db.votes|
    requires WellFormed(db) && OneVotePerUser(db)
    ensures WellFormed(RetractState(db, i, k)) && OneVotePerUser(RetractState(db, i, k))
  {
    var db1 := db.(votes := RemoveAt(db.votes, k));
    RemoveVoteWellFormed(db, k);
    var count := if db.quotes[i].voteCount - 1 < 0 then 0 else db.quotes[i].voteCount - 1;
    WithCountKeepsIds(db1, i, count);
    assert RetractState(db, i, k) == db1.(quotes := WithCount(db1.quotes, i, count));
  }

  lemma RetractStateCounts(db: Db, i: nat, k: nat)
    requires i < |db.quotes| && k < |db.votes|
    requires db.votes[k].quote == db.quotes[i].id
    requires QuoteIdsUnique(db) && CountsMatch(db)
    ensures CountsMatch(RetractState(db, i, k))
  {
    var db' := RetractState(db, i, k);
    assert CountFor(db.votes, db.quotes[i].id) > 0;
    forall j | 0 <= j < |db'.quotes|
      ensures db'.quotes[j].voteCount == CountFor(db'.votes, db'.quotes[j].id)
    {
      CountRemoveAt(db.votes, k, db.quotes[j].id);
      assert j != i ==> db.quotes[j].id != db.quotes[i].id;
    }
  }

  /** A successful retract keeps the ledger invariant. */
  lemma RetractPreservesConsistent(db: Db, i: nat, user: UserId)
    requires i < |db.quotes|
    requires Consistent(db)
    ensures Consistent(Retract(db, i, user).state)
  {
    if Retract(db, i, user).reply.Success? {
      var k := FindVote(db.votes, user, db.quotes[i].id).value;
      assert Retract(db, i, user).state == RetractState(db, i, k);
      RetractStateWellFormed(db, i, k);
      RetractStateCounts(db, i, k);
    }
  }

  /** Every `voteQuote` call, whatever its value and outcome, keeps the ledger invariant. */
  lemma VoteQuotePreservesConsistent(db: Db, quoteId: QuoteId, voteValue: int, user: UserId)
    requires Consistent(db)
    ensures Consistent(VoteQuote(db, quoteId, voteValue, user).state)
  {
    match FindQuote(db.quotes, quoteId)
    case None =>
    case Some(i) =>
      if voteValue == 1 {
        CastPreservesConsistent(db, i, user);
      } else if voteValue == -1 {
        RetractPreservesConsistent(db, i, user);
      }
  }

  /**
   * With one row per user, the cast branch's three outcomes are decided by
   * where the user's single vote sits: on this quote, on another one, or nowhere.
   */
  lemma CastOutcomes(db: Db, quoteId: QuoteId, user: UserId)
    requires OneVotePerUser(db)
    requires quoteId in Ids(db.quotes)
    ensures var r := VoteQuote(db, quoteId, 1, user);
      && (r.reply == Failure(AlreadyVoted) <==> HasVote(db.votes, user, quoteId))
      && (forall other :: r.reply == Failure(VotedForAnother(other)) <==>
            other != quoteId && HasVote(db.votes, user, other))
      && (r.reply.Success? <==> !HasAnyVote(db.votes, user))
  {
    var i := FindQuote(db.quotes, quoteId).value;
    match FirstVoteOf(db.votes, user)
    case None =>
    case Some(k) =>
      forall m | 0 <= m < |db.votes| && db.votes[m].user == user ensures m == k {
        if m < k {} else if k < m {}
      }
  }

  /** A successful cast adds exactly the pair (user, quote) to the set of voted pairs. */
  lemma CastAddsExactlyThePair(db: Db, quoteId: QuoteId, user: UserId, u: UserId, q: QuoteId)
    requires VoteQuote(db, quoteId, 1, user).reply.Success?
    ensures HasVote(VoteQuote(db, quoteId, 1, user).state.votes, u, q) <==>
      HasVote(db.votes, u, q) || (u == user && q == quoteId)
  {
    var i := FindQuote(db.quotes, quoteId).value;
    var votes' := VoteQuote(db, quoteId, 1, user).state.votes;
    assert votes' == db.votes + [Vote(user, quoteId, 1)];
    if HasVote(db.votes, u, q) {
      var k :| 0 <= k < |db.votes| && db.votes[k].user == u && db.votes[k].quote == q;
      assert votes'[k] == db.votes[k];
    }
    if u == user && q == quoteId {
      assert votes'[|db.votes|] == Vote(user, quoteId, 1);
    }
  }

  /**
   * With unique (user, quote) pairs, a successful retract removes exactly that
   * pair; every other pair, including the same user's, is untouched.
   */
  lemma RetractRemovesExactlyThePair(db: Db, quoteId: QuoteId, user: UserId, u: UserId, q: QuoteId)
    requires PairsUnique(db)
    requires VoteQuote(db, quoteId, -1, user).reply.Success?
    ensures HasVote(VoteQuote(db, quoteId, -1, user).state.votes, u, q) <==>
      HasVote(db.votes, u, q) && !(u == user && q == quoteId)
  {
    var i := FindQuote(db.quotes, quoteId).value;
    var k := FindVote(db.votes, user, quoteId).value;
    var votes' := VoteQuote(db, quoteId, -1, user).state.votes;
    assert votes' == RemoveAt(db.votes, k);
    if HasVote(votes', u, q) {
      var m :| 0 <= m < |votes'| && votes'[m].user == u && votes'[m].quote == q;
      var m' := if m < k then m else m + 1;
      assert votes'[m] == db.votes[m'];
      assert m' != k;
    }
    if HasVote(db.votes, u, q) && !(u == user && q == quoteId) {
      var m :| 0 <= m < |db.votes| && db.votes[m].user == u && db.votes[m].quote == q;
      assert m != k;
      if m < k { assert votes'[m] == db.votes[m]; } else { assert votes'[m - 1] == db.votes[m]; }
    }
  }

  /** Rewriting a counter and then writing the old value back gives back the table. */
  lemma WithCountUndo(quotes: seq<Quote>, i: nat, count: int)
    requires i < |quotes|
    ensures WithCount(WithCount(quotes, i, count), i, quotes[i].voteCount) == quotes
  {
    var back := WithCount(WithCount(quotes, i, count), i, quotes[i].voteCount);
    assert forall j :: 0 <= j < |quotes| ==> back[j] == quotes[j];
  }

  /** The row a cast appends is the first row for its pair. */
  lemma FindAppendedVote(votes: seq<Vote>, v: Vote)
    requires !HasVote(votes, v.user, v.quote)
    ensures FindVote(votes + [v], v.user, v.quote) == Some(|votes|)
  {
    var votes' := votes + [v];
    assert votes'[|votes|] == v;
    assert forall k :: 0 <= k < |votes| ==> votes'[k] == votes[k];
  }

  /** Casting and then retracting the same vote gives back the original tables. */
  lemma CastThenRetractRestores(db: Db, quoteId: QuoteId, user: UserId)
    requires CountsMatch(db)
    requires VoteQuote(db, quoteId, 1, user).reply.Success?
    ensures VoteQuote(VoteQuote(db, quoteId, 1, user).state, quoteId, -1, user) == Step(db, Success(Removed(quoteId)))
  {
    var i := FindQuote(db.quotes, quoteId).value;
    var c := db.quotes[i].voteCount;
    assert c >= 0;
    var v := Vote(user, quoteId, 1);
    var db' := Cast(db, i, user).state;
    assert db'.votes == db.votes + [v];
    assert db'.quotes == WithCount(db.quotes, i, c + 1);
    assert db'.nextId == db.nextId;
    FindQuoteAfterWithCount(db.quotes, i, c + 1, quoteId);
    FindAppendedVote(db.votes, v);
    var r := Retract(db', i, user);
    assert r.reply == Success(Removed(quoteId));
    RemoveAppended(db.votes, v);
    assert r.state.votes == db.votes;
    assert db'.quotes[i].voteCount - 1 == c;
    WithCountUndo(db.quotes, i, c + 1);
    assert r.state.quotes == db.quotes;
    assert r.state == db;
  }

  /** After a successful cast the user's current vote is the quote just voted for. */
  lemma CurrentVoteAfterCast(db: Db, quoteId: QuoteId, user: UserId)
    requires Consistent(db)
    requires VoteQuote(db, quoteId, 1, user).reply.Success?
    ensures GetUserCurrentVote(VoteQuote(db, quoteId, 1, user).state, user).Some?
    ensures GetUserCurrentVote(VoteQuote(db, quoteId, 1, user).state, user).value.quoteId == quoteId
  {
    var i := FindQuote(db.quotes, quoteId).value;
    CastPreservesConsistent(db, i, user);
    var db' := VoteQuote(db, quoteId, 1, user).state;
    assert db'.votes[|db.votes|] == Vote(user, quoteId, 1);
    assert forall k :: 0 <= k < |db.votes| ==> db'.votes[k] == db.votes[k] && db.votes[k].user != user;
  }

  /** After a successful retract the user has no current vote. */
  lemma CurrentVoteAfterRetract(db: Db, quoteId: QuoteId, user: UserId)
    requires Consistent(db)
    requires VoteQuote(db, quoteId, -1, user).reply.Success?
    ensures GetUserCurrentVote(VoteQuote(db, quoteId, -1, user).state, user).None?
  {
    var i := FindQuote(db.quotes, quoteId).value;
    RetractPreservesConsistent(db, i, user);
    var db' := VoteQuote(db, quoteId, -1, user).state;
    var k := FindVote(db.votes, user, quoteId).value;
    assert db'.votes == RemoveAt(db.votes, k);
    assert forall m :: 0 <= m < |db'.votes| ==>
      db'.votes[m] == db.votes[OriginalIndex(k, m)] && OriginalIndex(k, m) != k;
  }

  /**
   * On a consistent ledger the eligibility answer reduces to the rows: a vote
   * is possible exactly when no row references the quote.
   */
  lemma EligibilityMatchesRows(db: Db, quoteId: QuoteId, user: UserId)
    requires Consistent(db)
    requires quoteId in Ids(db.quotes)
    ensures CheckVoteEligibility(db, quoteId, user).value.canVote <==>
      forall k :: 0 <= k < |db.votes| ==> db.votes[k].quote != quoteId
    ensures CheckVoteEligibility(db, quoteId, user).value.existingVote.Some? ==>
      CheckVoteEligibility(db, quoteId, user).value.existingVote == Some(1) ||
      CheckVoteEligibility(db, quoteId, user).value.existingVote == Some(-1)
  {
    var i := FindQuote(db.quotes, quoteId).value;
    if CountFor(db.votes, quoteId) == 0 {
      assert !HasVote(db.votes, user, quoteId);
    }
  }

  /**
   * `can_vote` is not a prediction of the cast: a user holding a vote
   * elsewhere is told it can vote and is then refused, and a quote that
   * already has a vote is reported closed though another user can still cast.
   */
  lemma EligibilityIsNotCastOutcome()
    ensures exists db: Db, q: QuoteId, u: UserId ::
      && Consistent(db)
      && CheckVoteEligibility(db, q, u).Success? && CheckVoteEligibility(db, q, u).value.canVote
      && VoteQuote(db, q, 1, u).reply.Failure?
    ensures exists db: Db, q: QuoteId, u: UserId ::
      && Consistent(db)
      && CheckVoteEligibility(db, q, u).Success? && !CheckVoteEligibility(db, q, u).value.canVote
      && VoteQuote(db, q, 1, u).reply.Success?
  {
    var a := Quote(1, 10, "first quote", "someone", None, None, 1, 0, 0);
    var b := Quote(2, 10, "second quote", "someone", None, None, 0, 0, 0);
    var db := Db([a, b], [Vote(7, 1, 1)], 3);
    assert Ids(db.quotes) == {1, 2};
    assert CountFor(db.votes, 1) == 1 && CountFor(db.votes, 2) == 0;
    assert Consistent(db);
    assert FindQuote(db.quotes, 2) == Some(1);
    assert FindQuote(db.quotes, 1) == Some(0);
    assert CheckVoteEligibility(db, 2, 7).value.canVote;
    assert VoteQuote(db, 2, 1, 7).reply == Failure(VotedForAnother(1));
    assert !CheckVoteEligibility(db, 1, 8).value.canVote;
    assert VoteQuote(db, 1, 1, 8).reply.Success?;
  }
}

=== FILE: vote_service.dfy ===
/**
 * The vote ledger: casting (`vote_value = 1`) and retracting (`vote_value = -1`)
 * a vote, the eligibility read and the current-vote read. Each write runs as
 * one atomic step; a failure leaves both tables as they were.
 */
module VoteService {
  import opened Wrappers
  import opened Store

  /** The errors `voteQuote` and `checkVoteEligibility` throw. */
  datatype VoteError =
    | QuoteNotFound
      /** The user's vote row is already on this quote. */
    | AlreadyVoted
      /** The user's vote row is on another quote, named in the payload. */
    | VotedForAnother(currentVotedQuoteId: QuoteId)
      /** Retract found no row for this (user, quote) pair. */
    | NotVoted

  /** Replies of `voteQuote`; `NoReply` is the `undefined` of an unrecognised `vote_value`. */
  datatype VoteReply =
    | Voted(quoteId: QuoteId, voteValue: int)
    | Removed(quoteId: QuoteId)
    | NoReply

  /** The reply of `checkVoteEligibility`. */
  datatype Eligibility = Eligibility(
    quoteId: QuoteId,
    canVote: bool,
    quoteHasZeroVotes: bool,
    userHasNotVoted: bool,
    existingVote: Option<int>)

  /** The row `getUserCurrentVote` returns: the vote joined with its quote. */
  datatype CurrentVote = CurrentVote(
    quoteId: QuoteId,
    voteValue: int,
    content: string,
    author: string,
    voteCount: int)

  /** The quote table with the counter of row `i` replaced by `count`. */
  function WithCount(quotes: seq<Quote>, i: nat, count: int): (r: seq<Quote>)
    requires i < |quotes|
    ensures |r| == |quotes| && Ids(r) == Ids(quotes)
    ensures r[i] == quotes[i].(voteCount := count)
    ensures forall j :: 0 <= j < |quotes| && j != i ==> r[j] == quotes[j]
  {
    var r := quotes[i := quotes[i].(voteCount := count)];
    assert forall j :: 0 <= j < |r| ==> r[j].id == quotes[j].id;
    assert Ids(r) == Ids(quotes) by {
      forall id | id in Ids(quotes) ensures id in Ids(r) {
        var j :| 0 <= j < |quotes| && quotes[j].id == id;
        assert r[j].id == id;
      }
    }
    r
  }

  /**
   * The cast branch, once the quote is known to sit at position `i`: the user's
   * first vote row decides the error; with no row at all, the pair is inserted
   * with value 1 and the quote's counter goes up by one.
   */
  function Cast(db: Db, i: nat, user: UserId): (r: Step<VoteReply, VoteError>)
    requires i < |db.quotes|
    ensures r.reply.Failure? ==> r.state == db
    ensures r.reply.Success? <==> !HasAnyVote(db.votes, user)
    ensures r.reply.Success? ==>
      && r.reply.value == Voted(db.quotes[i].id, 1)
      && r.state.votes == db.votes + [Vote(user, db.quotes[i].id, 1)]
      && r.state.quotes == WithCount(db.quotes, i, db.quotes[i].voteCount + 1)
      && r.state.nextId == db.nextId
    ensures r.reply == Failure(AlreadyVoted) ==> HasVote(db.votes, user, db.quotes[i].id)
    ensures r.reply.Failure? && r.reply.error.VotedForAnother? ==>
      var other := r.reply.error.currentVotedQuoteId;
      other != db.quotes[i].id && HasVote(db.votes, user, other)
  {
    var quoteId := db.quotes[i].id;
    match FirstVoteOf(db.votes, user)
    case Some(k) =>
      if db.votes[k].quote == quoteId then Step(db, Failure(AlreadyVoted))
      else Step(db, Failure(VotedForAnother(db.votes[k].quote)))
    case None =>
      var quotes' := WithCount(db.quotes, i, db.quotes[i].voteCount + 1);
      Step(Db(quotes', db.votes + [Vote(user, quoteId, 1)], db.nextId), Success(Voted(quoteId, 1)))
  }

  /**
   * The retract branch: the first row for (user, quote) is deleted and the
   * counter drops by one, never below zero.
   */
  function Retract(db: Db, i: nat, user: UserId): (r: Step<VoteReply, VoteError>)
    requires i < |db.quotes|
    ensures r.reply.Failure? ==> r.state == db && r.reply.error == NotVoted
    ensures r.reply.Success? <==> HasVote(db.votes, user, db.quotes[i].id)
    ensures r.reply.Success? ==>
      var k := FindVote(db.votes, user, db.quotes[i].id).value;
      && r.reply.value == Removed(db.quotes[i].id)
      && r.state.votes == RemoveAt(db.votes, k)
      && r.state.quotes == WithCount(db.quotes, i, if db.quotes[i].voteCount - 1 < 0 then 0 else db.quotes[i].voteCount - 1)
      && r.state.nextId == db.nextId
  {
    var quoteId := db.quotes[i].id;
    match FindVote(db.votes, user, quoteId)
    case None => Step(db, Failure(NotVoted))
    case Some(k) =>
      var count := db.quotes[i].voteCount - 1;
      var quotes' := WithCount(db.quotes, i, if count < 0 then 0 else count);
      Step(Db(quotes', RemoveAt(db.votes, k), db.nextId), Success(Removed(quoteId)))
  }

  /**
   * `voteQuote`: the quote must exist whatever the value; then 1 casts, -1
   * retracts, and any other value changes nothing and yields no reply.
   */
  function VoteQuote(db: Db, quoteId: QuoteId, voteValue: int, user: UserId): (r: Step<VoteReply, VoteError>)
    ensures r.reply == Failure(QuoteNotFound) <==> quoteId !in Ids(db.quotes)
    ensures r.reply.Failure? ==> r.state == db
    ensures quoteId in Ids(db.quotes) && voteValue != 1 && voteValue != -1 ==> r == Step(db, Success(NoReply))
    ensures r.reply.Success? && voteValue == 1 ==> r.reply.value == Voted(quoteId, 1)
    ensures r.reply.Success? && voteValue == -1 ==> r.reply.value == Removed(quoteId)
  {
    match FindQuote(db.quotes, quoteId)
    case None => Step(db, Failure(QuoteNotFound))
    case Some(i) =>
      if voteValue == 1 then Cast(db, i, user)
      else if voteValue == -1 then Retract(db, i, user)
      else Step(db, Success(NoReply))
  }

  /**
   * `checkVoteEligibility`: a read. A vote is possible only on a quote nobody
   * has voted for yet and that this user has no row on.
   */
  function CheckVoteEligibility(db: Db, quoteId: QuoteId, user: UserId): (r: Result<Eligibility, VoteError>)
    ensures r.Failure? <==> quoteId !in Ids(db.quotes)
    ensures r.Failure? ==> r.error == QuoteNotFound
    ensures r.Success? ==>
      var e := r.value;
      var count := db.quotes[FindQuote(db.quotes, quoteId).value].voteCount;
      && e.quoteId == quoteId
      && (e.quoteHasZeroVotes <==> count == 0)
      && (e.userHasNotVoted <==> !HasVote(db.votes, user, quoteId))
      && (e.canVote <==> e.quoteHasZeroVotes && e.userHasNotVoted)
      && (e.existingVote.Some? <==> HasVote(db.votes, user, quoteId))
      && (e.existingVote.Some? ==> exists k :: 0 <= k < |db.votes| && db.votes[k] == Vote(user, quoteId, e.existingVote.value))
  {
    match FindQuote(db.quotes, quoteId)
    case None => Failure(QuoteNotFound)
    case Some(i) =>
      var row := FindVote(db.votes, user, quoteId);
      var zero := db.quotes[i].voteCount == 0;
      var notVoted := row.None?;
      Success(Eligibility(
        quoteId,
        zero && notVoted,
        zero,
        notVoted,
        if row.Some? then Some(db.votes[row.value].value) else None))
  }

  /** The quote columns of `cv` are those of the first quote row with its quote id. */
  predicate JoinedWith(cv: CurrentVote, quotes: seq<Quote>)
  {
    match FindQuote(quotes, cv.quoteId)
    case None => false
    case Some(i) =>
      cv.content == quotes[i].content && cv.author == quotes[i].author && cv.voteCount == quotes[i].voteCount
  }

  /** The first of `votes` by `user` whose quote exists, joined with that quote. */
  function JoinFirst(quotes: seq<Quote>, votes: seq<Vote>, user: UserId): (r: Option<CurrentVote>)
    ensures r.None? <==> forall k :: 0 <= k < |votes| && votes[k].user == user ==> votes[k].quote !in Ids(quotes)
    ensures r.Some? ==> exists k :: 0 <= k < |votes| && votes[k].user == user && votes[k].quote == r.value.quoteId
                                      && votes[k].value == r.value.voteValue
    ensures r.Some? ==> r.value.quoteId in Ids(quotes)
    ensures r.Some? ==> JoinedWith(r.value, quotes)
  {
    if |votes| == 0 then None
    else
      var v := votes[0];
      var i := FindQuote(quotes, v.quote);
      if v.user == user && i.Some? then
        var q := quotes[i.value];
        Some(CurrentVote(v.quote, v.value, q.content, q.author, q.voteCount))
      else
        var r := JoinFirst(quotes, votes[1..], user);
        assert r.Some? ==> exists k :: 0 <= k < |votes[1..]| && votes[1..][k].user == user && votes[1..][k].quote == r.value.quoteId
                                         && votes[1..][k].value == r.value.voteValue;
        r
  }

  /** `getUserCurrentVote`: the user's vote joined with its quote, or nothing. */
  function GetUserCurrentVote(db: Db, user: UserId): (r: Option<CurrentVote>)
    ensures VotesReferenceQuotes(db) ==> (r.None? <==> !HasAnyVote(db.votes, user))
    ensures r.Some? ==> HasVote(db.votes, user, r.value.quoteId) && r.value.quoteId in Ids(db.quotes)
    ensures r.Some? ==> exists k :: 0 <= k < |db.votes| && db.votes[k] == Vote(user, r.value.quoteId, r.value.voteValue)
    ensures r.Some? ==> JoinedWith(r.value, db.quotes)
  {
    JoinFirst(db.quotes, db.votes, user)
  }
}

=== FILE: wrappers.dfy ===
/** Optional values and success-or-error results shared by every component. */
module Wrappers {

  /** A value that may be absent: SQL NULL, an omitted request field, an empty lookup. */
  datatype Option<+T> = None | Some(value: T) {

    /** The carried value, or `default` when absent. */
    function GetOr(default: T): T
    {
      match this
      case Some(v) => v
      case None => default
    }
  }

  /** The outcome of a service call: a reply, or the typed error the service throws. */
  datatype Result<+R, +E> = Success(value: R) | Failure(error: E)
}
